=== FILE: README.md ===
# Tez client drivers: fault-tolerance runner and WordCount

A Dafny model of two Apache Tez client drivers:

- `FaultToleranceTestRunner` starts a Tez session in a random staging
  directory and reads the session status until it is READY or SHUTDOWN. It
  fails on SHUTDOWN. Otherwise it loads a DAG from a caller-named factory
  class, submits it, and reads the DAG status until the DAG has completed.
  It stops the session in a `finally` block. `main` turns the argument count
  and the run's result into an exit status.
- `WordCount` stages a per-application directory and starts a session. It
  refuses an output directory that already exists, then builds and submits
  the two-vertex word-count DAG and waits for it. In a `finally` block it
  deletes the staging directory and stops the session. The DAG's two
  processors are also modelled: `TokenProcessor` emits a (token, 1) pair per
  token, and `SumProcessor` sums each key group.

The drivers are written as pure functions over oracles:

- A finite sequence of readings stands for what successive
  `getSessionStatus` or `getDAGStatus` calls give. A reading is a status, or
  `ReadFailed` when the call throws.
- A `SetupOutcome` says how far setup gets: whether a lookup before the
  first effect throws, and otherwise which effect, if any, throws.
- In the runner, a boolean says whether `submitDAG` throws.
- In WordCount, a boolean says whether the output directory exists. An
  optional `Call` names the first call of the guarded section that throws
  (`fs.exists`, `createDAG`, `waitTillReady`, `submitDAG` or the completion
  wait). The DAG's final state is a parameter, and a boolean says whether
  deleting the staging directory throws.
- In both drivers, a boolean says whether `stop()` in the `finally` block
  throws. Its exception replaces whatever the guarded section returned or
  raised, as Java's `finally` does.

Each driver returns an `Outcome`: a returned boolean, an escaping exception,
or `StillPolling` when the observations run out first. It also returns the
effect trace: staging, session start, status polls, submissions, staging
deletion and session stop. Counting effects in that trace makes "exactly
once", "never after" and "only when" statable.

Modules:

| module | file | content |
|---|---|---|
| `Wrappers` | wrappers.dfy | `Option`, `Result` |
| `Decimal` | decimal.dfy | `String.valueOf` on naturals, and its inverse |
| `Staging` | staging.dfy | both staging-directory names, with parsers |
| `DagModel` | dag_model.dfy | DAG datatypes, well-formedness, the WordCount graph |
| `Protocol` | protocol.dfy | statuses, effects, outcomes, the poll-until loop |
| `FaultToleranceRunner` | fault_tolerance_runner.dfy | `tearDown`, `run`, `main` |
| `WordCountJob` | word_count_job.dfy | `run(in, out, conf)`, `run(String[])` |
| `Tokenizer` | tokenizer.dfy | `StringTokenizer` with its default delimiters |
| `Processors` | processors.dfy | `TokenProcessor`, `SumProcessor`, the end-to-end count |

## Model

| member | source | states |
|---|---|---|
| Decimal.ToNatFromNat | tez-tests/src/test/java/org/apache/tez/test/FaultToleranceTestRunner.java:63-64 | reading back the decimal text of the suffix gives the suffix |
| Decimal.FromNatToNat | tez-tests/src/test/java/org/apache/tez/test/FaultToleranceTestRunner.java:63-64 | every canonical digit string is the decimal text of its value |
| Decimal.FromNatLength | tez-tests/src/test/java/org/apache/tez/test/FaultToleranceTestRunner.java:64 | a suffix below 100000 has at most five digits |
| Staging.RunnerStagingDir | tez-tests/src/test/java/org/apache/tez/test/FaultToleranceTestRunner.java:53-64 | the runner's staging directory is "tmp/" followed by the canonical decimal of a suffix in [0, 100000), 5 to 9 characters long |
| Staging.RunnerStagingDirRoundTrip | tez-tests/src/test/java/org/apache/tez/test/FaultToleranceTestRunner.java:63-64 | the suffix can be read back from the directory name |
| Staging.RunnerStagingDirInjective | tez-tests/src/test/java/org/apache/tez/test/FaultToleranceTestRunner.java:63-64 | distinct suffixes give distinct staging directories |
| Staging.WordCountStagingDirRoundTrip | tez-mapreduce-examples/src/main/java/org/apache/tez/mapreduce/examples/WordCount.java:190-192 | "/user/" + user + "/.staging//" + appId splits back into the user and the application id, when the user holds no separator |
| Staging.ParseWordCountStagingDirSound | tez-mapreduce-examples/src/main/java/org/apache/tez/mapreduce/examples/WordCount.java:190-192 | every path the parser accepts is exactly the string the driver builds from the parsed parts, doubled separator included |
| Staging.WordCountStagingDirInjective | tez-mapreduce-examples/src/main/java/org/apache/tez/mapreduce/examples/WordCount.java:190-192 | different (user, application) pairs never share a staging directory, when neither user holds a separator |
| DagModel.RankedIsAcyclic | tez-mapreduce-examples/src/main/java/org/apache/tez/mapreduce/examples/WordCount.java:152-162 | a graph whose edges all strictly increase a rank has no cycle |
| DagModel.SelfLoopIsCyclic | tez-mapreduce-examples/src/main/java/org/apache/tez/mapreduce/examples/WordCount.java:155-156 | an edge from a vertex to itself makes the graph cyclic, so acyclicity is a real constraint |
| DagModel.WordCountDagWellFormed | tez-mapreduce-examples/src/main/java/org/apache/tez/mapreduce/examples/WordCount.java:140-162 | the WordCount graph has distinct vertex names, present edge endpoints and no cycle. Its shape: "tokenizer" has parallelism -1 and only the input; "summer" has parallelism 1 and only the output; one tokenizer→summer edge is SCATTER_GATHER / PERSISTED / SEQUENTIAL with a shared intermediate payload |
| Protocol.PollUntil | tez-tests/src/test/java/org/apache/tez/test/FaultToleranceTestRunner.java:104-109 | the wait ends exactly at the first settling observation; it runs out only when no observation settles |
| Protocol.PollUntilFirstIs | tez-tests/src/test/java/org/apache/tez/test/FaultToleranceTestRunner.java:104-110 | the status the wait ends on is the first settling one, and no other status is |
| Protocol.RepeatCount | tez-tests/src/test/java/org/apache/tez/test/FaultToleranceTestRunner.java:104-109 | n repeated polls add exactly n of that effect and none of any other |
| FaultToleranceRunner.TearDown | tez-tests/src/test/java/org/apache/tez/test/FaultToleranceTestRunner.java:79-83 | stops the session once when one exists; with no session it does nothing |
| FaultToleranceRunner.Monitor | tez-tests/src/test/java/org/apache/tez/test/FaultToleranceTestRunner.java:116-135 | submission comes first, then only DAG polls and the stop. An escaping exception is a cluster-call failure or the stop's own. It returns exactly when `submitDAG` does not throw, a completed state is read before any read throws, and the stop does not throw |
| FaultToleranceRunner.MonitorResult | tez-tests/src/test/java/org/apache/tez/test/FaultToleranceTestRunner.java:116-135 | unless the stop throws, raises a cluster-call failure iff `submitDAG` throws or the first settling DAG read throws. The stop's exception replaces the outcome iff the stop throws and the run does not stay waiting. Returns true iff the first completed state is SUCCEEDED. Polls the DAG once per reading up to the first completed or failing one, never after, and not at all when the submission throws. Every ending path stops the session once, last; a run still waiting does not stop it |
| FaultToleranceRunner.MonitorSubmitsOnce | tez-tests/src/test/java/org/apache/tez/test/FaultToleranceTestRunner.java:116-125 | the DAG is submitted once, first, and the session status is not read again |
| FaultToleranceRunner.AfterWait | tez-tests/src/test/java/org/apache/tez/test/FaultToleranceTestRunner.java:110-135 | given the settled reading: a failed read raises the cluster-call failure, or the stop's exception when the stop throws; unless the stop throws, SHUTDOWN raises the shutdown error and a failing factory after READY the load error. It returns iff READY, loaded, submitted without an exception, completed before any read throws, and the stop does not throw. It is still polling iff READY, loaded, submitted, and no DAG reading completes or throws. A throwing stop replaces the outcome of every path that ends, and every such path stops the session once, last |
| FaultToleranceRunner.Guarded | tez-tests/src/test/java/org/apache/tez/test/FaultToleranceTestRunner.java:103-135 | unless the stop throws, raises the shutdown error iff the first settled session reading is SHUTDOWN. Returns iff it is READY, the DAG loads, the submission does not throw, a completed state is read before any DAG read throws, and the stop does not throw. A throwing stop replaces the outcome of every path that ends |
| FaultToleranceRunner.WaitSettlesOn | tez-tests/src/test/java/org/apache/tez/test/FaultToleranceTestRunner.java:104-110 | the reading the readiness wait settles on is the first READY, SHUTDOWN or failed read, and an exhausted wait has none of them first |
| FaultToleranceRunner.GuardedStillPolling | tez-tests/src/test/java/org/apache/tez/test/FaultToleranceTestRunner.java:104-125 | the section is still polling iff no session reading settles, or the first settled one is READY, the DAG loads, the submission does not throw, and no DAG reading completes or throws; every other path ends |
| FaultToleranceRunner.GuardedStopsOnce | tez-tests/src/test/java/org/apache/tez/test/FaultToleranceTestRunner.java:101-133 | every path of the section that ends, a thrown exception included, stops the session exactly once, last |
| FaultToleranceRunner.GuardedSubmitsOnlyWhenReady | tez-tests/src/test/java/org/apache/tez/test/FaultToleranceTestRunner.java:104-116 | only the loaded DAG is submitted, and only when the first settled session status is READY |
| FaultToleranceRunner.AfterWaitSubmitsOnlyWhenReady | tez-tests/src/test/java/org/apache/tez/test/FaultToleranceTestRunner.java:110-116 | after the wait, only the loaded DAG is submitted, and only when the wait settled on READY |
| FaultToleranceRunner.GuardedSubmitsAtMostOnce | tez-tests/src/test/java/org/apache/tez/test/FaultToleranceTestRunner.java:116 | the loaded DAG appears at most once among the submissions |
| FaultToleranceRunner.GuardedQuietAfterSubmit | tez-tests/src/test/java/org/apache/tez/test/FaultToleranceTestRunner.java:104-125 | no session-status read follows a submission |
| FaultToleranceRunner.GuardedLoadFailure | tez-tests/src/test/java/org/apache/tez/test/FaultToleranceTestRunner.java:110-133 | loading fails exactly when the session was first seen READY, the factory throws, and the stop in the finally block does not throw |
| FaultToleranceRunner.GuardedCallFailure | tez-tests/src/test/java/org/apache/tez/test/FaultToleranceTestRunner.java:103-133 | a session or DAG-client exception escapes exactly when the stop does not throw and either the readiness wait ends on a throwing read, or, after READY and a loaded DAG, `submitDAG` or a DAG status read throws |
| FaultToleranceRunner.GuardedResult | tez-tests/src/test/java/org/apache/tez/test/FaultToleranceTestRunner.java:117-135 | on return, the result is true iff the first completed DAG state is SUCCEEDED, and the DAG was polled up to that state only |
| FaultToleranceRunner.GuardedSessionPolls | tez-tests/src/test/java/org/apache/tez/test/FaultToleranceTestRunner.java:104-109 | the session status is read once per observation up to the first settled one; when none settles, all of them are read, the run is still waiting and the session has not been stopped |
| FaultToleranceRunner.Run | tez-tests/src/test/java/org/apache/tez/test/FaultToleranceTestRunner.java:59-136 | a failure in the lookups before the staging directory raises with no effect at all. Otherwise the first effect ensures the staging directory; a staging or start failure escapes with no stop. After a good setup, the session start is followed by the guarded section, whose outcome is the run's |
| FaultToleranceRunner.RunTearsDownOnce | tez-tests/src/test/java/org/apache/tez/test/FaultToleranceTestRunner.java:101-133 | once setup has run, every ending path (success, failure, SHUTDOWN, load error, an exception from any session or DAG-client call) stops the session exactly once, last |
| FaultToleranceRunner.ShutdownNeverSubmits | tez-tests/src/test/java/org/apache/tez/test/FaultToleranceTestRunner.java:110-133 | if SHUTDOWN is seen first, the run raises the shutdown error, or the stop's exception when the stop throws, and its trace holds no submission |
| FaultToleranceRunner.RunSubmitsOnlyWhenReady | tez-tests/src/test/java/org/apache/tez/test/FaultToleranceTestRunner.java:101-116 | every submission is of the loaded DAG, after a good setup and a first-settled READY |
| FaultToleranceRunner.RunSubmitsAtMostOnce | tez-tests/src/test/java/org/apache/tez/test/FaultToleranceTestRunner.java:116 | the run submits its DAG at most once |
| FaultToleranceRunner.RunQuietAfterSubmit | tez-tests/src/test/java/org/apache/tez/test/FaultToleranceTestRunner.java:104-125 | the run reads no session status after submitting |
| FaultToleranceRunner.RunSubmitsExactlyOnce | tez-tests/src/test/java/org/apache/tez/test/FaultToleranceTestRunner.java:104-116 | a first-settled READY and a loadable DAG give exactly one submission |
| FaultToleranceRunner.RunResultAndPolls | tez-tests/src/test/java/org/apache/tez/test/FaultToleranceTestRunner.java:117-135 | when no DAG read throws before the first completed state, at position k, and the submission does not throw, the run makes exactly k+1 DAG polls and returns (that state == SUCCEEDED), unless the stop throws, whose exception then escapes instead |
| FaultToleranceRunner.RunWaitsUntilSettled | tez-tests/src/test/java/org/apache/tez/test/FaultToleranceTestRunner.java:104-109 | the wait reads the session status once per observation up to the first READY, SHUTDOWN or failed read, and never after. If none of these comes, the run is still waiting after reading every observation |
| FaultToleranceRunner.ParseArgs | tez-tests/src/test/java/org/apache/tez/test/FaultToleranceTestRunner.java:144-154 | one argument gives a class name and no configuration path; two give both; any other count is rejected |
| FaultToleranceRunner.Main | tez-tests/src/test/java/org/apache/tez/test/FaultToleranceTestRunner.java:143-163 | a wrong argument count exits 1 with no effects. Otherwise the run's trace is the process's trace: exit 0 iff the run returns true, exit 2 iff it returns false, the run's exception, the stop's included, escapes when it raises, and the process has not terminated exactly when the run is still waiting |
| FaultToleranceRunner.SucceedingScenario | tez-tests/src/test/java/org/apache/tez/test/FaultToleranceTestRunner.java:100-136 | INITIALIZING, READY followed by SUBMITTED, RUNNING, SUCCEEDED, and a stop that does not throw: the run returns true with one submission, three DAG polls and one stop |
| FaultToleranceRunner.StopFailureScenario | tez-tests/src/test/java/org/apache/tez/test/FaultToleranceTestRunner.java:100-163 | a DAG that succeeds, followed by a stop that throws: the run submits once, stops once and raises the stop's exception, and `main` throws rather than exiting 0 |
| FaultToleranceRunner.ShutdownScenario | tez-tests/src/test/java/org/apache/tez/test/FaultToleranceTestRunner.java:104-133 | INITIALIZING then SHUTDOWN: the run raises the shutdown error, or the stop's exception when the stop throws, submits nothing, and stops the session once |
| FaultToleranceRunner.StatusReadFailureScenario | tez-tests/src/test/java/org/apache/tez/test/FaultToleranceTestRunner.java:104-133 | INITIALIZING, then a status read that throws: that exception escapes, or the stop's when the stop throws; nothing is submitted, and the session is stopped once |
| WordCountJob.Finally | tez-mapreduce-examples/src/main/java/org/apache/tez/mapreduce/examples/WordCount.java:244-247 | the finally block deletes the staging directory once, and stops the session once unless the delete throws |
| WordCountJob.CallsMade | tez-mapreduce-examples/src/main/java/org/apache/tez/mapreduce/examples/WordCount.java:222-243 | how many of the four recorded calls (probe, readiness wait, submission, completion wait) are made: always the probe; the submission iff the output is fresh and no earlier call threw; the completion wait iff, in addition, the submission did not throw |
| WordCountJob.BodyTrace | tez-mapreduce-examples/src/main/java/org/apache/tez/mapreduce/examples/WordCount.java:222-243 | the guarded section's effects start with the output probe, never delete or stop, and submit only the word-count graph, at most once, only when the output is fresh and no earlier call threw; a clean run ends with the readiness wait, the submission and the completion wait |
| WordCountJob.BodyOutcome | tez-mapreduce-examples/src/main/java/org/apache/tez/mapreduce/examples/WordCount.java:222-243 | a throwing probe raises a cluster-call failure; otherwise an existing output raises; a throwing readiness wait raises its own error and any other throwing call a cluster-call failure; it returns iff the output is fresh and no call throws, with true iff the final state is SUCCEEDED |
| WordCountJob.Body | tez-mapreduce-examples/src/main/java/org/apache/tez/mapreduce/examples/WordCount.java:222-243 | an existing output directory raises before any submission; each throwing call raises its own error and later calls are not made. Only the word-count DAG is submitted, at most once, and only when the output is fresh and no earlier call threw. It returns iff the output is fresh and no call throws, with true iff the final state is SUCCEEDED; a return ends with the readiness wait, the submission and the completion wait |
| WordCountJob.Run | tez-mapreduce-examples/src/main/java/org/apache/tez/mapreduce/examples/WordCount.java:173-248 | a failing user, application or file-system lookup raises with no effect at all; a credentials, staging or start failure raises its own error. After a good setup a throwing delete replaces the outcome; otherwise the outcome is the guarded section's, replaced by the stop's exception when the stop throws. The existing-output error escapes iff setup succeeds, delete and stop do not throw, the output exists and the probe itself did not throw. A cluster-call failure escapes iff setup succeeds, delete and stop do not throw, and either the probe throws or the output is fresh and `createDAG`, `submitDAG` or the completion wait throws. A failed readiness wait raises its own error. The run returns iff setup succeeds, delete and stop do not throw, the output is fresh and no call throws, with true iff the final state is SUCCEEDED |
| WordCountJob.RunCleansUp | tez-mapreduce-examples/src/main/java/org/apache/tez/mapreduce/examples/WordCount.java:244-247 | after a good setup every path deletes the staging directory exactly once and stops the session exactly once iff the delete does not throw; a setup failure does neither |
| WordCountJob.RunEndsWithCleanup | tez-mapreduce-examples/src/main/java/org/apache/tez/mapreduce/examples/WordCount.java:244-247 | after a good setup the trace ends with the delete then the stop, or with the delete alone when it throws |
| WordCountJob.RunSubmitsWordCountDag | tez-mapreduce-examples/src/main/java/org/apache/tez/mapreduce/examples/WordCount.java:222-235 | the only DAG submitted is the word-count graph for the two paths, never when the output exists or an earlier call threw |
| WordCountJob.RunSubmitCount | tez-mapreduce-examples/src/main/java/org/apache/tez/mapreduce/examples/WordCount.java:235-243 | the word-count graph is submitted at most once, and exactly once when the run returns |
| WordCountJob.RunReturnsAfterCompletion | tez-mapreduce-examples/src/main/java/org/apache/tez/mapreduce/examples/WordCount.java:234-247 | a returning run ends with the readiness wait, the submission of the word-count graph, the completion wait, the delete and the stop, in that order |
| WordCountJob.DeleteFailureLeaksSession | tez-mapreduce-examples/src/main/java/org/apache/tez/mapreduce/examples/WordCount.java:244-247 | a successful DAG followed by a throwing delete: the run raises the delete's error and never stops the session |
| WordCountJob.SafeFinally | tez-mapreduce-examples/src/main/java/org/apache/tez/mapreduce/examples/WordCount.java:244-247 | the corrected finally block deletes once and stops once, the stop last |
| WordCountJob.SafeRun | tez-mapreduce-examples/src/main/java/org/apache/tez/mapreduce/examples/WordCount.java:173-248 | with the corrected finally block a delete's exception is swallowed: after a good setup the outcome is the guarded section's, replaced by the stop's exception when the stop throws, and a failing setup gives exactly the run as written. It returns iff setup succeeds, the output is fresh, no call throws and the stop does not throw |
| WordCountJob.SafeRunAlwaysStops | tez-mapreduce-examples/src/main/java/org/apache/tez/mapreduce/examples/WordCount.java:244-247 | with the corrected finally block, after a good setup the session is stopped exactly once, last, and the whole run, trace and outcome, is the same whether or not the delete throws |
| WordCountJob.ToolRun | tez-mapreduce-examples/src/main/java/org/apache/tez/mapreduce/examples/WordCount.java:250-262 | a count other than two exits 2 with no effects. Otherwise the job's exception escapes, and if it returns, true or false, the exit status is 0 |
| WordCountJob.ToolRunIgnoresDagResult | tez-mapreduce-examples/src/main/java/org/apache/tez/mapreduce/examples/WordCount.java:260-261 | the tool's result is the same whatever the DAG's final state |
| WordCountJob.FailedDagExitsZero | tez-mapreduce-examples/src/main/java/org/apache/tez/mapreduce/examples/WordCount.java:238-261 | a FAILED DAG makes the job return false, and the tool still exits 0; a SUCCEEDED DAG followed by a throwing stop makes the tool throw instead of exiting |
| Tokenizer.WordLength | tez-mapreduce-examples/src/main/java/org/apache/tez/mapreduce/examples/WordCount.java:91-93 | the leading token is the longest delimiter-free prefix |
| Tokenizer.Tokens | tez-mapreduce-examples/src/main/java/org/apache/tez/mapreduce/examples/WordCount.java:91-93 | every token is a non-empty run of non-delimiters |
| Tokenizer.TokensCoverText | tez-mapreduce-examples/src/main/java/org/apache/tez/mapreduce/examples/WordCount.java:91-93 | the tokens, concatenated, are exactly the line's non-delimiter characters, in order |
| Tokenizer.TokensOfJoinedWords | tez-mapreduce-examples/src/main/java/org/apache/tez/mapreduce/examples/WordCount.java:91-93 | tokenizing words joined by spaces gives the words back |
| Tokenizer.TokensOfSingleWord | tez-mapreduce-examples/src/main/java/org/apache/tez/mapreduce/examples/WordCount.java:91-93 | a line holding one word yields that word alone |
| Tokenizer.TokensOfBlank | tez-mapreduce-examples/src/main/java/org/apache/tez/mapreduce/examples/WordCount.java:91-92 | a line of delimiters yields no token |
| Tokenizer.TokensSplit | tez-mapreduce-examples/src/main/java/org/apache/tez/mapreduce/examples/WordCount.java:91-93 | tokens are maximal runs: the tokens of a, a delimiter, then b are the tokens of a followed by those of b |
| Processors.Wrap32 | tez-mapreduce-examples/src/main/java/org/apache/tez/mapreduce/examples/WordCount.java:111-113 | `int` wrap-around is congruent to the exact value modulo 2^32 and is the identity within range |
| Processors.WrapAddWrapped | tez-mapreduce-examples/src/main/java/org/apache/tez/mapreduce/examples/WordCount.java:113 | wrapping after each addition equals wrapping the exact total once |
| Processors.Emit | tez-mapreduce-examples/src/main/java/org/apache/tez/mapreduce/examples/WordCount.java:90-95 | one (token, 1) pair per token of every line, in input order |
| Processors.TokenProcessor | tez-mapreduce-examples/src/main/java/org/apache/tez/mapreduce/examples/WordCount.java:84-95 | fails with an illegal-argument error iff there is not exactly one input and one output; otherwise it writes one (token, 1) pair per token, in order |
| Processors.Accumulate | tez-mapreduce-examples/src/main/java/org/apache/tez/mapreduce/examples/WordCount.java:111-114 | the `int` accumulator ends at the exact sum of the values, wrapped to 32 bits |
| Processors.SumGroups | tez-mapreduce-examples/src/main/java/org/apache/tez/mapreduce/examples/WordCount.java:109-116 | one record per group, in group order: its key and the wrapped sum of its values |
| Processors.SumProcessor | tez-mapreduce-examples/src/main/java/org/apache/tez/mapreduce/examples/WordCount.java:104-116 | fails iff the input count is not 1 or there is no output. Otherwise each group's key is written once with the wrapped sum of its values, and an empty group gives 0 |
| Processors.SumOfOnes | tez-mapreduce-examples/src/main/java/org/apache/tez/mapreduce/examples/WordCount.java:111-114 | summing only ones gives the number of values |
| Processors.GroupSumIsCount | tez-mapreduce-examples/src/main/java/org/apache/tez/mapreduce/examples/WordCount.java:94-114 | a group holding one key's values, all 1, sums to that key's record count |
| Processors.GroupCountsOccurrences | tez-mapreduce-examples/src/main/java/org/apache/tez/mapreduce/examples/WordCount.java:90-114 | a group holding a word's emitted values sums to that word's occurrences across all lines |
| Processors.GroupsCoverWords | tez-mapreduce-examples/src/main/java/org/apache/tez/mapreduce/examples/WordCount.java:90-109 | under the grouping assumption every input word has a group |
| Processors.WordCountsOccurrences | tez-mapreduce-examples/src/main/java/org/apache/tez/mapreduce/examples/WordCount.java:90-116 | if the shuffle groups the tokenizer's pairs by key, the summer writes every word exactly once, with its occurrences over all lines (wrapped to `int`) |

## Left out

- Hadoop `Configuration`, `FileSystem`, `Path.makeQualified`, `TokenCache` and `UserGroupInformation`. They are I/O and foreign calls. Staging, credentials, the output probe and deletion are opaque trace effects over the unqualified path string. The user name and application id are parameters.
- `TezSession`, `TezClient` and `DAGClient` internals. Their code is not part of this model. Observed statuses are oracle sequences, and `waitTillReady` and `waitForCompletionWithAllStatusUpdates` are single calls whose results are parameters (whether they throw, and `final`).
- The library's own `DAG`, `Vertex` and `Edge` validation (duplicate names, cycles). That code is not part of this model. `DagModel.WellFormed` states instead what that validation would accept, and it is proved for the WordCount graph.
- Reflective `getDAG` (`Class.forName`, `Method.invoke`, reading the configuration file). It is an opaque loader from the parsed arguments to a DAG, or to none when it throws.
- `Thread.sleep(500)`, progress printing, usage text and DAG diagnostics text. These are timing and output only. An interrupted sleep in the runner's loops is not a separate case: it is modelled as the next status read throwing, so the trace records one read more than was made.
- The kind of exception a cluster call throws. In the runner, a throwing `getSessionStatus`, `submitDAG` or `getDAGStatus` is one error, `ClusterCallFailed`; in WordCount so is a throwing `fs.exists`, `createDAG`, `submitDAG` or completion wait. A throwing `waitTillReady` is `SessionNotReady`. A throwing `stop()` in either `finally` block is `SessionStopFailed`, and in WordCount a throwing delete is `StagingDeleteFailed`.
- `java.util.Random`. The suffix is any value in [0, 100000).
- Java resources and options set on vertices, and the AM Java options. They are configuration values that no stated property depends on.
- Record I/O (`MRInput`, `OnFileSortedOutput`, `ShuffledMergedInput`, payload bytes) and the shuffle/sort. The processors work on sequences, and the shuffle is the stated assumption `Processors.GroupedBy`. Payloads are tags naming their directory or key/value classes.
- Unicode: `Text` and `String` are plain character sequences with no encoding.
- An unbounded status loop in the runner. A poll that never settles is cut off where the observations end and reported as `StillPolling`; liveness beyond the given observations is not stated.
- WordCountJob.Run: a `waitTillReady` or completion wait that never returns is not represented. Both are single calls that either return or throw, so `Run` never ends in `StillPolling`.
- DAG states: the `DAGStatus` source is not part of this model. Its states are SUBMITTED, RUNNING, SUCCEEDED, FAILED, KILLED and ERROR, and the last four count as completed.
- `main`'s call to `System.exit` versus a normal return. A normal return is written `Exited(0)`.
- Setup failure in both drivers. Setup runs before the `try`, so a failure there escapes with no teardown: the session is not stopped and the staging directory is not deleted. This is modelled as written.
- Which setup lookup throws. In the runner, building the configuration, `FileSystem.get` and `makeQualified` (FaultToleranceTestRunner.java lines 60-63) are one case, `SetupLookupFailed` with an empty trace. In WordCount so are `getCurrentUser`, `createApplication`, `FileSystem.get` and `makeQualified` (WordCount.java lines 183-195); a throwing `obtainTokensForNamenodes` (line 198) is `CredentialsFailed`.
- The steps between the staging directory and the session start record no effect, and a failure among them is folded into the session-start failure, whose trace still records the start. In the runner these are the staging-directory setting and the AM and session configuration (FaultToleranceTestRunner.java lines 67-75); in WordCount, the AM Java options and the AM and session configuration (WordCount.java lines 200-217).
- The runner never deletes its staging directory; `tearDown` only stops the session. This is modelled as written.

## Findings

| source | as written | input that shows it | evidently intended | confidence | as-written member | corrected member |
|---|---|---|---|---|---|---|
| tez-mapreduce-examples/src/main/java/org/apache/tez/mapreduce/examples/WordCount.java:244-247 | the finally block deletes the staging directory and then stops the session; when the delete throws, the stop is skipped and the session is left running | setup succeeds, the DAG succeeds, the delete throws | a failed cleanup of the staging directory does not keep the session from being stopped | medium, not executed | WordCountJob.DeleteFailureLeaksSession | WordCountJob.SafeRunAlwaysStops |

=== FILE: dag_model.dfy ===
/**
 * The DAG description a driver submits: vertices running a processor,
 * root inputs and outputs, and edges whose property fixes data movement,
 * data source and scheduling. `CreateWordCountDag` is the literal graph
 * WordCount builds.
 */
module DagModel {
  import opened Wrappers

  datatype DataMovement = OneToOne | Broadcast | ScatterGather
  datatype DataSource = Persisted | Ephemeral
  datatype Scheduling = Sequential | Concurrent

  /** The plug-in classes a descriptor can name. */
  datatype PluginClass =
    | TokenProcessorClass
    | SumProcessorClass
    | MRInputClass
    | MROutputClass
    | MRInputAMSplitGeneratorClass
    | MROutputCommitterClass
    | OnFileSortedOutputClass
    | ShuffledMergedInputClass

  /** Hadoop record classes named in intermediate-data payloads. */
  datatype WritableClass = TextClass | IntWritableClass

  /** The configuration a descriptor's user payload carries. */
  datatype Payload =
    | NoPayload
    | InputDirPayload(inputDir: string)
    | OutputDirPayload(outputDir: string)
    | IntermediatePayload(keyClass: WritableClass, valueClass: WritableClass)

  /** A plug-in class together with its user payload. */
  datatype Descriptor = Descriptor(plugin: PluginClass, payload: Payload)

  /** Which MapReduce resource and launch-option settings a vertex takes. */
  datatype TaskProfile = MapProfile | ReduceProfile

  /** An input read from outside the DAG, optionally with an initializer that generates splits. */
  datatype RootInput = RootInput(name: string, descriptor: Descriptor, initializer: Option<PluginClass>)

  /** An output written outside the DAG, optionally with a committer. */
  datatype RootOutput = RootOutput(name: string, descriptor: Descriptor, committer: Option<PluginClass>)

  /** Parallelism value meaning "decided at run time from the input splits". */
  const SplitDerived: int := -1

  datatype Vertex = Vertex(
    name: string,
    processor: Descriptor,
    parallelism: int,
    profile: TaskProfile,
    inputs: seq<RootInput>,
    outputs: seq<RootOutput>)

  datatype EdgeProperty = EdgeProperty(
    movement: DataMovement,
    source: DataSource,
    scheduling: Scheduling,
    edgeOutput: Descriptor,
    edgeInput: Descriptor)

  /** An edge names its endpoints by vertex name. */
  datatype Edge = Edge(from: string, to: string, property: EdgeProperty)

  datatype Dag = Dag(name: string, vertices: seq<Vertex>, edges: seq<Edge>)

  predicate HasVertex(d: Dag, name: string) {
    exists i :: 0 <= i < |d.vertices| && d.vertices[i].name == name
  }

  predicate HasEdge(d: Dag, a: string, b: string) {
    exists k :: 0 <= k < |d.edges| && d.edges[k].from == a && d.edges[k].to == b
  }

  predicate DistinctNames(d: Dag) {
    forall i, j :: 0 <= i < j < |d.vertices| ==> d.vertices[i].name != d.vertices[j].name
  }

  predicate EndpointsPresent(d: Dag) {
    forall k :: 0 <= k < |d.edges| ==> HasVertex(d, d.edges[k].from) && HasVertex(d, d.edges[k].to)
  }

  /** A walk of at least one edge. */
  ghost predicate IsPath(d: Dag, p: seq<string>) {
    |p| >= 2 && forall i :: 0 <= i < |p| - 1 ==> HasEdge(d, p[i], p[i + 1])
  }

  /** No walk of one or more edges returns to its start. */
  ghost predicate Acyclic(d: Dag) {
    forall p :: IsPath(d, p) ==> p[0] != p[|p| - 1]
  }

  /**
   * Parallelism is positive or split-derived, and only a vertex with a split
   * initializer on a root input may leave it to run time.
   */
  predicate ParallelismResolvable(d: Dag) {
    forall i :: 0 <= i < |d.vertices| ==>
      var v := d.vertices[i];
      (v.parallelism > 0 || v.parallelism == SplitDerived) &&
      (v.parallelism == SplitDerived ==>
        exists j :: 0 <= j < |v.inputs| && v.inputs[j].initializer.Some?)
  }

  ghost predicate WellFormed(d: Dag) {
    DistinctNames(d) && EndpointsPresent(d) && Acyclic(d) && ParallelismResolvable(d)
  }

  /** Along any path, a rank that grows across every edge grows from start to end. */
  lemma {:induction false} PathRankGrows(d: Dag, rank: string -> int, p: seq<string>)
    requires forall k :: 0 <= k < |d.edges| ==> rank(d.edges[k].from) < rank(d.edges[k].to)
    requires IsPath(d, p)
    ensures rank(p[0]) < rank(p[|p| - 1])
    decreases |p|
  {
    assert HasEdge(d, p[0], p[1]);
    var k :| 0 <= k < |d.edges| && d.edges[k].from == p[0] && d.edges[k].to == p[1];
    if |p| > 2 {
      var q := p[1..];
      assert IsPath(d, q) by {
        forall i | 0 <= i < |q| - 1 ensures HasEdge(d, q[i], q[i + 1]) {
          assert HasEdge(d, p[i + 1], p[i + 2]);
        }
      }
      PathRankGrows(d, rank, q);
    }
  }

  /** A graph whose edges all climb some rank has no cycle. */
  lemma RankedIsAcyclic(d: Dag, rank: string -> int)
    requires forall k :: 0 <= k < |d.edges| ==> rank(d.edges[k].from) < rank(d.edges[k].to)
    ensures Acyclic(d)
  {
    forall p | IsPath(d, p)
      ensures p[0] != p[|p| - 1]
    {
      PathRankGrows(d, rank, p);
    }
  }

  /** A graph with a self-loop is not acyclic, so `Acyclic` is not trivially true. */
  lemma SelfLoopIsCyclic(d: Dag, k: nat)
    requires k < |d.edges| && d.edges[k].from == d.edges[k].to
    ensures !Acyclic(d)
  {
    var p := [d.edges[k].from, d.edges[k].to];
    assert HasEdge(d, p[0], p[1]);
    assert IsPath(d, p);
  }

  const TokenizerName: string := "tokenizer"
  const SummerName: string := "summer"

  /** The graph `WordCount.createDAG` builds for the given input and output directories. */
  function CreateWordCountDag(inputPath: string, outputPath: string): Dag {
    var intermediate := IntermediatePayload(TextClass, IntWritableClass);
    var tokenizer := Vertex(
      TokenizerName,
      Descriptor(TokenProcessorClass, NoPayload),
      SplitDerived,
      MapProfile,
      [RootInput("MRInput", Descriptor(MRInputClass, InputDirPayload(inputPath)), Some(MRInputAMSplitGeneratorClass))],
      []);
    var summer := Vertex(
      SummerName,
      Descriptor(SumProcessorClass, NoPayload),
      1,
      ReduceProfile,
      [],
      [RootOutput("MROutput", Descriptor(MROutputClass, OutputDirPayload(outputPath)), Some(MROutputCommitterClass))]);
    var shuffle := EdgeProperty(
      ScatterGather, Persisted, Sequential,
      Descriptor(OnFileSortedOutputClass, intermediate),
      Descriptor(ShuffledMergedInputClass, intermediate));
    Dag("WordCount", [tokenizer, summer], [Edge(TokenizerName, SummerName, shuffle)])
  }

  /**
   * The WordCount graph is well formed whatever the paths, and has the shape
   * the driver declares: a split-derived tokenizer reading the input, a single
   * summer writing the output, and one scatter-gather, persisted, sequential
   * edge between them whose sorted output and merged input share a payload.
   */
  lemma WordCountDagWellFormed(inputPath: string, outputPath: string)
    ensures var d := CreateWordCountDag(inputPath, outputPath);
      && WellFormed(d)
      && |d.vertices| == 2 && |d.edges| == 1
      && d.vertices[0].name == TokenizerName && d.vertices[0].parallelism == SplitDerived
      && |d.vertices[0].inputs| == 1 && d.vertices[0].outputs == []
      && d.vertices[0].inputs[0].descriptor.payload == InputDirPayload(inputPath)
      && d.vertices[1].name == SummerName && d.vertices[1].parallelism == 1
      && d.vertices[1].inputs == [] && |d.vertices[1].outputs| == 1
      && d.vertices[1].outputs[0].descriptor.payload == OutputDirPayload(outputPath)
      && d.edges[0].from == TokenizerName && d.edges[0].to == SummerName
      && d.edges[0].property.movement == ScatterGather
      && d.edges[0].property.source == Persisted
      && d.edges[0].property.scheduling == Sequential
      && d.edges[0].property.edgeOutput.payload == d.edges[0].property.edgeInput.payload
  {
    var d := CreateWordCountDag(inputPath, outputPath);
    assert HasVertex(d, TokenizerName) by { assert d.vertices[0].name == TokenizerName; }
    assert HasVertex(d, SummerName) by { assert d.vertices[1].name == SummerName; }
    var rank := (s: string) => if s == TokenizerName then 0 else 1;
    RankedIsAcyclic(d, rank);
    assert d.vertices[0].inputs[0].initializer.Some?;
  }
}

=== FILE: decimal.dfy ===
/**
 * Decimal rendering of non-negative integers, as Java's `String.valueOf(int)`
 * renders the random staging suffix of the fault-tolerance runner.
 */
module Decimal {

  predicate IsDigit(c: char) {
    '0' <= c <= '9'
  }

  predicate AllDigits(s: string) {
    forall i :: 0 <= i < |s| ==> IsDigit(s[i])
  }

  /** A rendering without superfluous leading zeros, as `String.valueOf` produces. */
  predicate Canonical(s: string) {
    |s| >= 1 && AllDigits(s) && (|s| > 1 ==> s[0] != '0')
  }

  function DigitChar(d: nat): (c: char)
    requires d < 10
    ensures IsDigit(c)
    ensures c as int - '0' as int == d
  {
    ('0' as int + d) as char
  }

  function DigitValue(c: char): (d: nat)
    requires IsDigit(c)
    ensures d < 10
  {
    c as int - '0' as int
  }

  /** The decimal rendering of `n`, most significant digit first. */
  function FromNat(n: nat): (s: string)
    ensures Canonical(s)
    ensures s[0] == '0' <==> n == 0
    decreases n
  {
    if n < 10 then [DigitChar(n)] else FromNat(n / 10) + [DigitChar(n % 10)]
  }

  /** The value a string of digits denotes; the reference reading of a rendering. */
  function ToNat(s: string): nat
    requires AllDigits(s)
  {
    if |s| == 0 then 0 else ToNat(s[..|s| - 1]) * 10 + DigitValue(s[|s| - 1])
  }

  /** Reading back a rendering gives the number rendered. */
  lemma {:induction false} ToNatFromNat(n: nat)
    ensures ToNat(FromNat(n)) == n
    decreases n
  {
    if n >= 10 {
      var s := FromNat(n);
      assert s[..|s| - 1] == FromNat(n / 10);
      ToNatFromNat(n / 10);
    }
  }

  /** Rendering the value of a canonical string gives that string back. */
  lemma {:induction false} FromNatToNat(s: string)
    requires Canonical(s)
    ensures FromNat(ToNat(s)) == s
    decreases |s|
  {
    if |s| == 1 {
      assert DigitChar(DigitValue(s[0])) == s[0];
    } else {
      var p := s[..|s| - 1];
      assert Canonical(p) by {
        assert p[0] == s[0];
      }
      FromNatToNat(p);
      PositiveIfLeadingNonZero(p);
      var n := ToNat(s);
      assert n / 10 == ToNat(p);
      assert n % 10 == DigitValue(s[|s| - 1]);
      assert DigitChar(DigitValue(s[|s| - 1])) == s[|s| - 1];
      assert s == p + [s[|s| - 1]];
    }
  }

  lemma {:induction false} PositiveIfLeadingNonZero(s: string)
    requires Canonical(s) && s[0] != '0'
    ensures ToNat(s) > 0
    decreases |s|
  {
    if |s| > 1 {
      var p := s[..|s| - 1];
      assert p[0] == s[0];
      PositiveIfLeadingNonZero(p);
    }
  }

  /** Distinct numbers have distinct renderings. */
  lemma FromNatInjective(a: nat, b: nat)
    requires FromNat(a) == FromNat(b)
    ensures a == b
  {
    ToNatFromNat(a);
    ToNatFromNat(b);
  }

  /** Numbers below 100000 render in at most five digits. */
  lemma {:induction false} FromNatLength(n: nat)
    requires n < 100000
    ensures |FromNat(n)| <= 5
  {
    if n >= 10 {
      if n >= 100 {
        if n >= 1000 {
          if n >= 10000 {
            assert |FromNat(n / 10000)| == 1;
          }
          assert |FromNat(n / 1000)| <= 2;
        }
        assert |FromNat(n / 100)| <= 3;
      }
      assert |FromNat(n / 10)| <= 4;
    }
  }
}

=== FILE: fault_tolerance_runner.dfy ===
/**
 * `FaultToleranceTestRunner`: sets up a session, waits until it is READY
 * (failing on SHUTDOWN), loads a DAG through a caller-named factory, submits
 * it, polls its status until completion, and tears the session down in a
 * finally block. Any session or DAG-client call inside the guarded section
 * may throw; the exception escapes after the teardown, unless the teardown's
 * own `stop()` throws, whose exception then replaces it. `main` maps the
 * argument count and the run's result to an exit status.
 */
module FaultToleranceRunner {
  import opened Wrappers
  import opened Protocol
  import DagModel
  import Staging

  /** `tearDown`: stop the session if one was created; with no session it does nothing. */
  function TearDown(hasSession: bool): (t: seq<Effect>)
    ensures Count(t, StopSession) == (if hasSession then 1 else 0)
    ensures forall i :: 0 <= i < |t| ==> t[i] == StopSession
  {
    if hasSession then [StopSession] else []
  }

  /**
   * How far `setup` gets: building the configuration, `FileSystem.get` or
   * `makeQualified` may throw before anything is touched (`LookupFails`);
   * then `ensureStagingDirExists`, then the session's construction and start.
   */
  datatype SetupOutcome = SetupOk | LookupFails | StagingFails | StartFails

  /** Effects of `setup` up to where it stops. */
  function SetupTrace(setup: SetupOutcome, suffix: nat): seq<Effect>
    requires suffix < Staging.SuffixBound
  {
    var dir := Staging.RunnerStagingDir(suffix);
    match setup
    case LookupFails => []
    case StagingFails => [EnsureStagingDir(dir)]
    case StartFails | SetupOk => [EnsureStagingDir(dir), StartSession]
  }

  /** No session poll follows a DAG submission. */
  predicate SessionQuietAfterSubmit(t: seq<Effect>) {
    forall i, j :: 0 <= i < j < |t| && t[i].SubmitDag? ==> t[j] != PollSessionStatus
  }

  lemma QuietAfterSubmitAppend(a: seq<Effect>, b: seq<Effect>)
    requires forall i :: 0 <= i < |a| ==> !a[i].SubmitDag?
    requires forall j :: 0 <= j < |b| ==> b[j] != PollSessionStatus
    ensures SessionQuietAfterSubmit(a + b)
  {
    var t := a + b;
    forall i, j | 0 <= i < j < |t| && t[i].SubmitDag?
      ensures t[j] != PollSessionStatus
    {
      assert i >= |a|;
      assert t[j] == b[j - |a|];
    }
  }

  /** The DAG status reads reach a completed state before any of them throws. */
  ghost predicate ReachesCompletion(dagObs: seq<Reading<DagState>>) {
    exists k :: IsFirst(dagObs, DagDone, k) && dagObs[k].Got?
  }

  /**
   * After the session is READY: submit `dag` (`submitFails` when that call
   * throws), poll its status until completed or until a read throws, then
   * tear down (`stopFails` when `stop()` throws). After the submission the
   * trace holds only DAG polls and the stop.
   */
  function Monitor(dag: DagModel.Dag, submitFails: bool, dagObs: seq<Reading<DagState>>, stopFails: bool): (r: RunRecord)
    ensures |r.trace| >= 1 && r.trace[0] == SubmitDag(dag)
    ensures forall i :: 0 < i < |r.trace| ==> r.trace[i] == PollDagStatus || r.trace[i] == StopSession
    ensures r.outcome.Raised? ==> r.outcome.error == ClusterCallFailed || r.outcome.error == SessionStopFailed
    ensures r.outcome.Returned? <==> !stopFails && !submitFails && ReachesCompletion(dagObs)
  {
    IsFirstUnique(dagObs, DagDone);
    if submitFails then RunRecord(AfterStop(Raised(ClusterCallFailed), stopFails), [SubmitDag(dag)] + TearDown(true))
    else match PollUntil(dagObs, DagDone)
      case Exhausted =>
        RunRecord(StillPolling, [SubmitDag(dag)] + Repeat(PollDagStatus, |dagObs|))
      case Settled(m, last) =>
        var outcome := if last.ReadFailed? then Raised(ClusterCallFailed) else Returned(last.value == Succeeded);
        RunRecord(AfterStop(outcome, stopFails), [SubmitDag(dag)] + Repeat(PollDagStatus, m) + TearDown(true))
  }

  /**
   * Monitoring raises a cluster-call failure exactly when the submission or
   * a DAG status read throws and the stop does not; the stop's exception
   * replaces the outcome of every path that reaches it; it returns true iff
   * the first completed state is SUCCEEDED; it polls the DAG once per
   * observation up to the first completed or failing read and never after;
   * and every ending path stops the session exactly once, last, while a run
   * still polling has not stopped it.
   */
  lemma MonitorResult(dag: DagModel.Dag, submitFails: bool, dagObs: seq<Reading<DagState>>, stopFails: bool)
    ensures var r := Monitor(dag, submitFails, dagObs, stopFails);
      && (r.outcome == Raised(ClusterCallFailed) <==> !stopFails && (submitFails || FirstIs(dagObs, DagDone, ReadFailed)))
      && (r.outcome.StillPolling? <==> !submitFails && forall j :: 0 <= j < |dagObs| ==> !DagDone(dagObs[j]))
      && (r.outcome == Raised(SessionStopFailed) <==> stopFails && !r.outcome.StillPolling?)
      && (r.outcome.Returned? ==> (r.outcome.succeeded <==> FirstIs(dagObs, DagDone, Got(Succeeded))))
      && (submitFails ==> Count(r.trace, PollDagStatus) == 0)
      && (!submitFails ==> forall k :: IsFirst(dagObs, DagDone, k) ==> Count(r.trace, PollDagStatus) == k + 1)
      && (!r.outcome.StillPolling? ==> Count(r.trace, StopSession) == 1 && r.trace[|r.trace| - 1] == StopSession)
      && (r.outcome.StillPolling? ==> Count(r.trace, StopSession) == 0)
  {
    PollUntilFirstIs(dagObs, DagDone, ReadFailed);
    PollUntilFirstIs(dagObs, DagDone, Got(Succeeded));
    IsFirstUnique(dagObs, DagDone);
    if !submitFails {
      match PollUntil(dagObs, DagDone)
      case Exhausted =>
        RepeatCount(PollDagStatus, |dagObs|, StopSession);
      case Settled(m, final) =>
        RepeatCount(PollDagStatus, m, PollDagStatus);
        RepeatCount(PollDagStatus, m, StopSession);
    }
  }

  /** Monitoring submits its DAG once, first, and never polls the session. */
  lemma MonitorSubmitsOnce(dag: DagModel.Dag, submitFails: bool, dagObs: seq<Reading<DagState>>, stopFails: bool)
    ensures var t := Monitor(dag, submitFails, dagObs, stopFails).trace;
      && Count(t, SubmitDag(dag)) == 1
      && (forall i :: 0 < i < |t| ==> !t[i].SubmitDag?)
      && PollSessionStatus !in t
  {
    var t := Monitor(dag, submitFails, dagObs, stopFails).trace;
    assert t == [t[0]] + t[1..];
    assert SubmitDag(dag) !in multiset(t[1..]);
    assert PollSessionStatus !in t[1..];
  }

  /**
   * What follows the readiness wait once it settles on `status` (READY,
   * SHUTDOWN or a failed read): raise if the read threw, raise on SHUTDOWN,
   * raise if the DAG cannot be loaded, otherwise `Monitor`; the finally
   * block stops the session on every path that ends, and a throwing stop
   * replaces that path's outcome. Only a DAG that never completes leaves it
   * still polling.
   */
  function AfterWait(
    status: Reading<SessionStatus>, loaded: Option<DagModel.Dag>,
    submitFails: bool, dagObs: seq<Reading<DagState>>, stopFails: bool): (r: RunRecord)
    requires SessionDone(status)
    ensures r.outcome == Raised(UnexpectedSessionShutdown) <==> !stopFails && status == Got(Shutdown)
    ensures r.outcome == Raised(DagLoadFailed) <==> !stopFails && status == Got(Ready) && loaded.None?
    ensures status == ReadFailed ==> r.outcome == (if stopFails then Raised(SessionStopFailed) else Raised(ClusterCallFailed))
    ensures r.outcome.Returned? <==>
      !stopFails && status == Got(Ready) && loaded.Some? && !submitFails && ReachesCompletion(dagObs)
    ensures r.outcome.StillPolling? <==>
      status == Got(Ready) && loaded.Some? && !submitFails && forall j :: 0 <= j < |dagObs| ==> !DagDone(dagObs[j])
    ensures r.outcome == Raised(SessionStopFailed) <==> stopFails && !r.outcome.StillPolling?
    ensures !r.outcome.StillPolling? ==>
      |r.trace| >= 1 && Count(r.trace, StopSession) == 1 && r.trace[|r.trace| - 1] == StopSession
    ensures forall i :: 0 <= i < |r.trace| ==> r.trace[i] != PollSessionStatus
  {
    match status
    case ReadFailed => RunRecord(AfterStop(Raised(ClusterCallFailed), stopFails), TearDown(true))
    case Got(s) =>
      if s == Shutdown then RunRecord(AfterStop(Raised(UnexpectedSessionShutdown), stopFails), TearDown(true))
      else match loaded
        case None => RunRecord(AfterStop(Raised(DagLoadFailed), stopFails), TearDown(true))
        case Some(dag) =>
          MonitorResult(dag, submitFails, dagObs, stopFails);
          MonitorSubmitsOnce(dag, submitFails, dagObs, stopFails);
          Monitor(dag, submitFails, dagObs, stopFails)
  }

  /**
   * The reading the readiness wait settles on is the first READY, SHUTDOWN
   * or failed read, and when the wait runs out none of them comes first.
   */
  lemma WaitSettlesOn(sessionObs: seq<Reading<SessionStatus>>)
    ensures match PollUntil(sessionObs, SessionDone)
      case Exhausted =>
        && !FirstIs(sessionObs, SessionDone, Got(Ready))
        && !FirstIs(sessionObs, SessionDone, Got(Shutdown))
        && !FirstIs(sessionObs, SessionDone, ReadFailed)
      case Settled(_, status) =>
        && SessionDone(status)
        && (FirstIs(sessionObs, SessionDone, Got(Ready)) <==> status == Got(Ready))
        && (FirstIs(sessionObs, SessionDone, Got(Shutdown)) <==> status == Got(Shutdown))
        && (FirstIs(sessionObs, SessionDone, ReadFailed) <==> status == ReadFailed)
  {
    PollUntilFirstIs(sessionObs, SessionDone, Got(Ready));
    PollUntilFirstIs(sessionObs, SessionDone, Got(Shutdown));
    PollUntilFirstIs(sessionObs, SessionDone, ReadFailed);
  }

  /**
   * The `try`/`finally` section of `run`: read the session status until it is
   * READY or SHUTDOWN or a read throws, then `AfterWait`. The finally block's
   * `stop()` runs on every path that ends; when it throws (`stopFails`), its
   * exception is what `run` raises. `GuardedStillPolling` says when it is
   * still polling, and `GuardedStopsOnce` that every other path stops the
   * session once.
   */
  function Guarded(
    sessionObs: seq<Reading<SessionStatus>>, loaded: Option<DagModel.Dag>,
    submitFails: bool, dagObs: seq<Reading<DagState>>, stopFails: bool): (r: RunRecord)
    ensures r.outcome == Raised(UnexpectedSessionShutdown) <==> !stopFails && FirstIs(sessionObs, SessionDone, Got(Shutdown))
    ensures r.outcome.Returned? <==>
      !stopFails && FirstIs(sessionObs, SessionDone, Got(Ready)) && loaded.Some? && !submitFails && ReachesCompletion(dagObs)
    ensures r.outcome == Raised(SessionStopFailed) <==> stopFails && !r.outcome.StillPolling?
  {
    WaitSettlesOn(sessionObs);
    match PollUntil(sessionObs, SessionDone)
    case Exhausted =>
      RunRecord(StillPolling, Repeat(PollSessionStatus, |sessionObs|))
    case Settled(n, status) =>
      var a := AfterWait(status, loaded, submitFails, dagObs, stopFails);
      RunRecord(a.outcome, Repeat(PollSessionStatus, n) + a.trace)
  }

  /**
   * The section is still polling exactly while the session has not settled,
   * or after READY while a submitted DAG has not completed and no read has
   * thrown. Every other path ends.
   */
  lemma GuardedStillPolling(
    sessionObs: seq<Reading<SessionStatus>>, loaded: Option<DagModel.Dag>,
    submitFails: bool, dagObs: seq<Reading<DagState>>, stopFails: bool)
    ensures Guarded(sessionObs, loaded, submitFails, dagObs, stopFails).outcome.StillPolling? <==>
      || (forall j :: 0 <= j < |sessionObs| ==> !SessionDone(sessionObs[j]))
      || (FirstIs(sessionObs, SessionDone, Got(Ready)) && loaded.Some? && !submitFails &&
          forall j :: 0 <= j < |dagObs| ==> !DagDone(dagObs[j]))
  {
    WaitSettlesOn(sessionObs);
  }

  /** Every path of the section that ends stops the session exactly once, last. */
  lemma GuardedStopsOnce(
    sessionObs: seq<Reading<SessionStatus>>, loaded: Option<DagModel.Dag>,
    submitFails: bool, dagObs: seq<Reading<DagState>>, stopFails: bool)
    ensures var r := Guarded(sessionObs, loaded, submitFails, dagObs, stopFails);
      !r.outcome.StillPolling? ==>
        |r.trace| >= 1 && Count(r.trace, StopSession) == 1 && r.trace[|r.trace| - 1] == StopSession
  {
    match PollUntil(sessionObs, SessionDone)
    case Exhausted =>
    case Settled(n, status) =>
      RepeatCount(PollSessionStatus, n, StopSession);
  }

  /** After the wait, only the loaded DAG is submitted, and only when the wait settled on READY. */
  lemma AfterWaitSubmitsOnlyWhenReady(
    status: Reading<SessionStatus>, loaded: Option<DagModel.Dag>,
    submitFails: bool, dagObs: seq<Reading<DagState>>, stopFails: bool)
    requires SessionDone(status)
    ensures var a := AfterWait(status, loaded, submitFails, dagObs, stopFails).trace;
      forall i :: 0 <= i < |a| && a[i].SubmitDag? ==> status == Got(Ready) && loaded.Some? && a[i].dag == loaded.value
  {
    var a := AfterWait(status, loaded, submitFails, dagObs, stopFails).trace;
    if status == Got(Ready) && loaded.Some? {
      assert a == Monitor(loaded.value, submitFails, dagObs, stopFails).trace;
    } else {
      assert a == TearDown(true);
    }
  }

  /** A DAG is submitted only after the session was first seen READY, and it is the loaded DAG. */
  lemma GuardedSubmitsOnlyWhenReady(
    sessionObs: seq<Reading<SessionStatus>>, loaded: Option<DagModel.Dag>,
    submitFails: bool, dagObs: seq<Reading<DagState>>, stopFails: bool)
    ensures var t := Guarded(sessionObs, loaded, submitFails, dagObs, stopFails).trace;
      forall i :: 0 <= i < |t| && t[i].SubmitDag? ==>
        FirstIs(sessionObs, SessionDone, Got(Ready)) && loaded.Some? && t[i].dag == loaded.value
  {
    var t := Guarded(sessionObs, loaded, submitFails, dagObs, stopFails).trace;
    WaitSettlesOn(sessionObs);
    match PollUntil(sessionObs, SessionDone)
    case Exhausted =>
      assert forall i :: 0 <= i < |t| ==> t[i] == PollSessionStatus;
    case Settled(n, status) =>
      var a := AfterWait(status, loaded, submitFails, dagObs, stopFails).trace;
      AfterWaitSubmitsOnlyWhenReady(status, loaded, submitFails, dagObs, stopFails);
      assert t == Repeat(PollSessionStatus, n) + a;
      forall i | 0 <= i < |t| && t[i].SubmitDag?
        ensures status == Got(Ready) && loaded.Some? && t[i].dag == loaded.value
      {
        assert t[i] == a[i - n];
      }
  }

  /** The loaded DAG is submitted at most once. */
  lemma GuardedSubmitsAtMostOnce(
    sessionObs: seq<Reading<SessionStatus>>, dag: DagModel.Dag,
    submitFails: bool, dagObs: seq<Reading<DagState>>, stopFails: bool)
    ensures Count(Guarded(sessionObs, Some(dag), submitFails, dagObs, stopFails).trace, SubmitDag(dag)) <= 1
  {
    var g := Guarded(sessionObs, Some(dag), submitFails, dagObs, stopFails).trace;
    match PollUntil(sessionObs, SessionDone)
    case Exhausted =>
      RepeatCount(PollSessionStatus, |sessionObs|, SubmitDag(dag));
    case Settled(n, status) =>
      var w := Repeat(PollSessionStatus, n);
      var a := AfterWait(status, Some(dag), submitFails, dagObs, stopFails).trace;
      assert g == w + a;
      RepeatCount(PollSessionStatus, n, SubmitDag(dag));
      if status == Got(Ready) {
        MonitorSubmitsOnce(dag, submitFails, dagObs, stopFails);
        assert a == Monitor(dag, submitFails, dagObs, stopFails).trace;
      } else {
        assert forall i :: 0 <= i < |a| ==> a[i] == StopSession;
        assert SubmitDag(dag) !in a;
      }
  }

  /** Once a DAG is submitted the session status is never polled again. */
  lemma GuardedQuietAfterSubmit(
    sessionObs: seq<Reading<SessionStatus>>, loaded: Option<DagModel.Dag>,
    submitFails: bool, dagObs: seq<Reading<DagState>>, stopFails: bool)
    ensures SessionQuietAfterSubmit(Guarded(sessionObs, loaded, submitFails, dagObs, stopFails).trace)
  {
    var g := Guarded(sessionObs, loaded, submitFails, dagObs, stopFails).trace;
    match PollUntil(sessionObs, SessionDone)
    case Exhausted =>
      var w := Repeat(PollSessionStatus, |sessionObs|);
      assert g == w + [];
      QuietAfterSubmitAppend(w, []);
    case Settled(n, status) =>
      var w := Repeat(PollSessionStatus, n);
      var a := AfterWait(status, loaded, submitFails, dagObs, stopFails).trace;
      assert g == w + a;
      QuietAfterSubmitAppend(w, a);
  }

  /**
   * Loading the DAG fails exactly when the factory throws after the session
   * was seen READY, and that is what `run` raises unless the stop throws.
   */
  lemma GuardedLoadFailure(
    sessionObs: seq<Reading<SessionStatus>>, loaded: Option<DagModel.Dag>,
    submitFails: bool, dagObs: seq<Reading<DagState>>, stopFails: bool)
    ensures Guarded(sessionObs, loaded, submitFails, dagObs, stopFails).outcome == Raised(DagLoadFailed) <==>
      !stopFails && FirstIs(sessionObs, SessionDone, Got(Ready)) && loaded.None?
  {
    PollUntilFirstIs(sessionObs, SessionDone, Got(Ready));
  }

  /**
   * An exception from a session or DAG-client call in the guarded section
   * escapes exactly when the readiness wait ends on a failed read, or, after
   * READY and a loaded DAG, when the submission or a DAG status read throws,
   * and in either case the finally block's `stop()` does not throw.
   */
  lemma GuardedCallFailure(
    sessionObs: seq<Reading<SessionStatus>>, loaded: Option<DagModel.Dag>,
    submitFails: bool, dagObs: seq<Reading<DagState>>, stopFails: bool)
    ensures Guarded(sessionObs, loaded, submitFails, dagObs, stopFails).outcome == Raised(ClusterCallFailed) <==>
      && !stopFails
      && (|| FirstIs(sessionObs, SessionDone, ReadFailed)
          || (FirstIs(sessionObs, SessionDone, Got(Ready)) && loaded.Some? &&
              (submitFails || FirstIs(dagObs, DagDone, ReadFailed))))
  {
    PollUntilFirstIs(sessionObs, SessionDone, ReadFailed);
    PollUntilFirstIs(sessionObs, SessionDone, Got(Ready));
    if loaded.Some? {
      MonitorResult(loaded.value, submitFails, dagObs, stopFails);
    }
  }

  /**
   * On return, the result is true iff the first completed DAG state is
   * SUCCEEDED, and the DAG was polled once per observation up to and including
   * that state, never after it.
   */
  lemma GuardedResult(
    sessionObs: seq<Reading<SessionStatus>>, loaded: Option<DagModel.Dag>,
    submitFails: bool, dagObs: seq<Reading<DagState>>, stopFails: bool)
    ensures var r := Guarded(sessionObs, loaded, submitFails, dagObs, stopFails);
      r.outcome.Returned? ==>
        && (r.outcome.succeeded <==> FirstIs(dagObs, DagDone, Got(Succeeded)))
        && exists k :: IsFirst(dagObs, DagDone, k) && Count(r.trace, PollDagStatus) == k + 1
  {
    var r := Guarded(sessionObs, loaded, submitFails, dagObs, stopFails);
    if r.outcome.Returned? {
      match PollUntil(sessionObs, SessionDone)
      case Settled(n, status) =>
        RepeatCount(PollSessionStatus, n, PollDagStatus);
        MonitorResult(loaded.value, submitFails, dagObs, stopFails);
        assert r.trace == Repeat(PollSessionStatus, n) + Monitor(loaded.value, submitFails, dagObs, stopFails).trace;
    }
  }

  /**
   * The section reads the session status exactly as often as the readiness
   * loop ran; while it is still waiting it has not stopped the session.
   */
  lemma GuardedSessionPolls(
    sessionObs: seq<Reading<SessionStatus>>, loaded: Option<DagModel.Dag>,
    submitFails: bool, dagObs: seq<Reading<DagState>>, stopFails: bool)
    ensures var g := Guarded(sessionObs, loaded, submitFails, dagObs, stopFails);
      match PollUntil(sessionObs, SessionDone)
      case Exhausted =>
        && g.outcome == StillPolling
        && Count(g.trace, PollSessionStatus) == |sessionObs|
        && Count(g.trace, StopSession) == 0
      case Settled(n, _) => Count(g.trace, PollSessionStatus) == n
  {
    match PollUntil(sessionObs, SessionDone)
    case Exhausted =>
      RepeatCount(PollSessionStatus, |sessionObs|, PollSessionStatus);
      RepeatCount(PollSessionStatus, |sessionObs|, StopSession);
    case Settled(n, status) =>
      RepeatCount(PollSessionStatus, n, PollSessionStatus);
      var a := AfterWait(status, loaded, submitFails, dagObs, stopFails).trace;
      assert PollSessionStatus !in a;
  }

  /**
   * `run(className, confFilePath)`. `setup` says how far setup gets, `suffix`
   * is the random staging suffix, `sessionObs` and `dagObs` are what
   * successive status reads give, `loaded` is the DAG the factory returns
   * (None when loading throws), `submitFails` is whether `submitDAG`
   * throws, and `stopFails` whether the teardown's `stop()` throws. Setup
   * runs before the guarded section, so a failing setup escapes without
   * teardown.
   */
  function Run(
    setup: SetupOutcome, suffix: nat, sessionObs: seq<Reading<SessionStatus>>,
    loaded: Option<DagModel.Dag>, submitFails: bool, dagObs: seq<Reading<DagState>>, stopFails: bool): (r: RunRecord)
    requires suffix < Staging.SuffixBound
    ensures setup.LookupFails? ==> r == RunRecord(Raised(SetupLookupFailed), [])
    ensures !setup.LookupFails? ==> |r.trace| >= 1 && r.trace[0] == EnsureStagingDir(Staging.RunnerStagingDir(suffix))
    ensures setup.StagingFails? ==> r.outcome == Raised(StagingFailed)
    ensures setup.StartFails? ==> r.outcome == Raised(SessionStartFailed)
    ensures !setup.SetupOk? ==> Count(r.trace, StopSession) == 0
    ensures setup.SetupOk? ==>
      |r.trace| >= 2 && r.trace[1] == StartSession &&
      r.trace[2..] == Guarded(sessionObs, loaded, submitFails, dagObs, stopFails).trace
    ensures setup.SetupOk? ==> r.outcome == Guarded(sessionObs, loaded, submitFails, dagObs, stopFails).outcome
  {
    var pre := SetupTrace(setup, suffix);
    match setup
    case LookupFails => RunRecord(Raised(SetupLookupFailed), pre)
    case StagingFails => RunRecord(Raised(StagingFailed), pre)
    case StartFails => RunRecord(Raised(SessionStartFailed), pre)
    case SetupOk =>
      var g := Guarded(sessionObs, loaded, submitFails, dagObs, stopFails);
      assert (pre + g.trace)[2..] == g.trace;
      RunRecord(g.outcome, pre + g.trace)
  }

  /**
   * Once setup has run, `run` stops the session exactly once, as its last
   * effect, on every path that ends: success, DAG failure, SHUTDOWN error,
   * DAG loading error, and an exception from any session or DAG-client call.
   */
  lemma RunTearsDownOnce(
    suffix: nat, sessionObs: seq<Reading<SessionStatus>>, loaded: Option<DagModel.Dag>,
    submitFails: bool, dagObs: seq<Reading<DagState>>, stopFails: bool)
    requires suffix < Staging.SuffixBound
    ensures var r := Run(SetupOk, suffix, sessionObs, loaded, submitFails, dagObs, stopFails);
      !r.outcome.StillPolling? ==> Count(r.trace, StopSession) == 1 && r.trace[|r.trace| - 1] == StopSession
  {
    var r := Run(SetupOk, suffix, sessionObs, loaded, submitFails, dagObs, stopFails);
    GuardedStopsOnce(sessionObs, loaded, submitFails, dagObs, stopFails);
    assert r.trace == r.trace[..2] + r.trace[2..];
  }

  /**
   * If the session is first seen SHUTDOWN, nothing is ever submitted and
   * `run` raises: the shutdown error, or the stop's exception when the
   * teardown throws.
   */
  lemma ShutdownNeverSubmits(
    suffix: nat, sessionObs: seq<Reading<SessionStatus>>, loaded: Option<DagModel.Dag>,
    submitFails: bool, dagObs: seq<Reading<DagState>>, stopFails: bool)
    requires suffix < Staging.SuffixBound
    requires FirstIs(sessionObs, SessionDone, Got(Shutdown))
    ensures var r := Run(SetupOk, suffix, sessionObs, loaded, submitFails, dagObs, stopFails);
      && r.outcome == (if stopFails then Raised(SessionStopFailed) else Raised(UnexpectedSessionShutdown))
      && forall i :: 0 <= i < |r.trace| ==> !r.trace[i].SubmitDag?
  {
    var r := Run(SetupOk, suffix, sessionObs, loaded, submitFails, dagObs, stopFails);
    var g := Guarded(sessionObs, loaded, submitFails, dagObs, stopFails);
    PollUntilFirstIs(sessionObs, SessionDone, Got(Shutdown));
    PollUntilFirstIs(sessionObs, SessionDone, Got(Ready));
    GuardedSubmitsOnlyWhenReady(sessionObs, loaded, submitFails, dagObs, stopFails);
    forall i | 0 <= i < |r.trace| ensures !r.trace[i].SubmitDag? {
      if i >= 2 {
        assert r.trace[i] == g.trace[i - 2];
      }
    }
  }

  /** Setup itself submits nothing and never polls the session. */
  lemma SetupTraceQuiet(setup: SetupOutcome, suffix: nat)
    requires suffix < Staging.SuffixBound
    ensures var pre := SetupTrace(setup, suffix);
      forall i :: 0 <= i < |pre| ==> !pre[i].SubmitDag? && pre[i] != PollSessionStatus
  {
  }

  /** `run` submits only the loaded DAG, and only after the session was first seen READY. */
  lemma RunSubmitsOnlyWhenReady(
    setup: SetupOutcome, suffix: nat, sessionObs: seq<Reading<SessionStatus>>,
    loaded: Option<DagModel.Dag>, submitFails: bool, dagObs: seq<Reading<DagState>>, stopFails: bool)
    requires suffix < Staging.SuffixBound
    ensures var t := Run(setup, suffix, sessionObs, loaded, submitFails, dagObs, stopFails).trace;
      forall i :: 0 <= i < |t| && t[i].SubmitDag? ==>
        setup.SetupOk? && FirstIs(sessionObs, SessionDone, Got(Ready)) && loaded.Some? && t[i].dag == loaded.value
  {
    var t := Run(setup, suffix, sessionObs, loaded, submitFails, dagObs, stopFails).trace;
    SetupTraceQuiet(setup, suffix);
    if setup.SetupOk? {
      var g := Guarded(sessionObs, loaded, submitFails, dagObs, stopFails).trace;
      GuardedSubmitsOnlyWhenReady(sessionObs, loaded, submitFails, dagObs, stopFails);
      forall i | 2 <= i < |t| ensures t[i] == g[i - 2] { }
    }
  }

  /** `run` submits the loaded DAG at most once. */
  lemma RunSubmitsAtMostOnce(
    setup: SetupOutcome, suffix: nat, sessionObs: seq<Reading<SessionStatus>>,
    dag: DagModel.Dag, submitFails: bool, dagObs: seq<Reading<DagState>>, stopFails: bool)
    requires suffix < Staging.SuffixBound
    ensures Count(Run(setup, suffix, sessionObs, Some(dag), submitFails, dagObs, stopFails).trace, SubmitDag(dag)) <= 1
  {
    var t := Run(setup, suffix, sessionObs, Some(dag), submitFails, dagObs, stopFails).trace;
    var pre := SetupTrace(setup, suffix);
    if setup.SetupOk? {
      GuardedSubmitsAtMostOnce(sessionObs, dag, submitFails, dagObs, stopFails);
      assert t == pre + Guarded(sessionObs, Some(dag), submitFails, dagObs, stopFails).trace;
    } else {
      assert t == pre;
    }
  }

  /** After submitting, `run` polls the session no more. */
  lemma RunQuietAfterSubmit(
    setup: SetupOutcome, suffix: nat, sessionObs: seq<Reading<SessionStatus>>,
    loaded: Option<DagModel.Dag>, submitFails: bool, dagObs: seq<Reading<DagState>>, stopFails: bool)
    requires suffix < Staging.SuffixBound
    ensures SessionQuietAfterSubmit(Run(setup, suffix, sessionObs, loaded, submitFails, dagObs, stopFails).trace)
  {
    var t := Run(setup, suffix, sessionObs, loaded, submitFails, dagObs, stopFails).trace;
    var pre := SetupTrace(setup, suffix);
    SetupTraceQuiet(setup, suffix);
    if setup.SetupOk? {
      var g := Guarded(sessionObs, loaded, submitFails, dagObs, stopFails).trace;
      GuardedQuietAfterSubmit(sessionObs, loaded, submitFails, dagObs, stopFails);
      assert t == pre + g;
      forall i, j | 0 <= i < j < |t| && t[i].SubmitDag?
        ensures t[j] != PollSessionStatus
      {
        assert t[i] == g[i - 2] && t[j] == g[j - 2];
      }
    } else {
      assert t == pre;
    }
  }

  /** Once the session is first seen READY and the DAG loads, `submitDAG` is called exactly once. */
  lemma RunSubmitsExactlyOnce(
    suffix: nat, sessionObs: seq<Reading<SessionStatus>>, dag: DagModel.Dag,
    submitFails: bool, dagObs: seq<Reading<DagState>>, stopFails: bool)
    requires suffix < Staging.SuffixBound
    requires FirstIs(sessionObs, SessionDone, Got(Ready))
    ensures Count(Run(SetupOk, suffix, sessionObs, Some(dag), submitFails, dagObs, stopFails).trace, SubmitDag(dag)) == 1
  {
    PollUntilFirstIs(sessionObs, SessionDone, Got(Ready));
    var n := PollUntil(sessionObs, SessionDone).polls;
    var g := Guarded(sessionObs, Some(dag), submitFails, dagObs, stopFails);
    assert g.trace == Repeat(PollSessionStatus, n) + Monitor(dag, submitFails, dagObs, stopFails).trace;
    MonitorSubmitsOnce(dag, submitFails, dagObs, stopFails);
    RepeatCount(PollSessionStatus, n, SubmitDag(dag));
    assert Run(SetupOk, suffix, sessionObs, Some(dag), submitFails, dagObs, stopFails).trace == SetupTrace(SetupOk, suffix) + g.trace;
  }

  /**
   * When the submission does not throw and a completed DAG state comes
   * before any failing read, `run` returns true exactly when that state is
   * SUCCEEDED (any other completed state gives false), unless the stop
   * throws, whose exception then escapes instead. Either way the DAG was
   * polled once per observation up to that state and never after it.
   */
  lemma RunResultAndPolls(
    suffix: nat, sessionObs: seq<Reading<SessionStatus>>, dag: DagModel.Dag,
    dagObs: seq<Reading<DagState>>, stopFails: bool, k: nat)
    requires suffix < Staging.SuffixBound
    requires FirstIs(sessionObs, SessionDone, Got(Ready))
    requires IsFirst(dagObs, DagDone, k) && dagObs[k].Got?
    ensures var r := Run(SetupOk, suffix, sessionObs, Some(dag), false, dagObs, stopFails);
      && r.outcome == (if stopFails then Raised(SessionStopFailed) else Returned(dagObs[k].value == Succeeded))
      && Count(r.trace, PollDagStatus) == k + 1
  {
    var r := Run(SetupOk, suffix, sessionObs, Some(dag), false, dagObs, stopFails);
    var g := Guarded(sessionObs, Some(dag), false, dagObs, stopFails);
    PollUntilFirstIs(sessionObs, SessionDone, Got(Ready));
    PollUntilFirstIs(dagObs, DagDone, Got(Succeeded));
    PollUntilFirstIs(dagObs, DagDone, dagObs[k]);
    IsFirstUnique(dagObs, DagDone);
    MonitorResult(dag, false, dagObs, stopFails);
    var n := PollUntil(sessionObs, SessionDone).polls;
    RepeatCount(PollSessionStatus, n, PollDagStatus);
    assert g.trace == Repeat(PollSessionStatus, n) + Monitor(dag, false, dagObs, stopFails).trace;
    assert r.trace == SetupTrace(SetupOk, suffix) + g.trace;
  }

  /**
   * The readiness wait reads the session status once per observation up to
   * the first READY, SHUTDOWN or failed read and never after it; if none
   * comes, `run` is still waiting after reading them all.
   */
  lemma RunWaitsUntilSettled(
    suffix: nat, sessionObs: seq<Reading<SessionStatus>>, loaded: Option<DagModel.Dag>,
    submitFails: bool, dagObs: seq<Reading<DagState>>, stopFails: bool)
    requires suffix < Staging.SuffixBound
    ensures var r := Run(SetupOk, suffix, sessionObs, loaded, submitFails, dagObs, stopFails);
      && (forall k :: IsFirst(sessionObs, SessionDone, k) ==> Count(r.trace, PollSessionStatus) == k + 1)
      && ((forall j :: 0 <= j < |sessionObs| ==> !SessionDone(sessionObs[j])) ==>
            r.outcome == StillPolling && Count(r.trace, PollSessionStatus) == |sessionObs|)
  {
    var r := Run(SetupOk, suffix, sessionObs, loaded, submitFails, dagObs, stopFails);
    var g := Guarded(sessionObs, loaded, submitFails, dagObs, stopFails);
    assert r.trace == SetupTrace(SetupOk, suffix) + g.trace;
    GuardedSessionPolls(sessionObs, loaded, submitFails, dagObs, stopFails);
    forall k | IsFirst(sessionObs, SessionDone, k)
      ensures Count(r.trace, PollSessionStatus) == k + 1
    {
      PollUntilFirstIs(sessionObs, SessionDone, sessionObs[k]);
    }
  }

  /** The positional arguments `main` accepts: a DAG factory class and an optional configuration file. */
  datatype RunnerArgs = RunnerArgs(className: string, confFilePath: Option<string>)

  /** One argument names the factory class; a second names the configuration file; any other count is a usage error. */
  function ParseArgs(args: seq<string>): (r: Option<RunnerArgs>)
    ensures r.Some? <==> |args| == 1 || |args| == 2
    ensures r.Some? ==> r.value.className == args[0]
    ensures r.Some? ==> (r.value.confFilePath == if |args| == 2 then Some(args[1]) else None)
  {
    if |args| == 1 then Some(RunnerArgs(args[0], None))
    else if |args| == 2 then Some(RunnerArgs(args[0], Some(args[1])))
    else None
  }

  /** How the process ends: `System.exit(code)`, a normal return (status 0), an escaping exception, or not yet. */
  datatype Termination = Exited(code: int) | Threw(error: RunError) | Waiting

  datatype MainRecord = MainRecord(termination: Termination, trace: seq<Effect>)

  /** Usage error. */
  const UsageExit: int := 1
  /** The DAG ran but did not succeed. */
  const FailureExit: int := 2

  /**
   * `main(args)`. `loader` stands for the reflective `createDAG` lookup the
   * runner performs with the parsed arguments. A run still polling when the
   * observations end has not terminated the process.
   */
  function Main(
    args: seq<string>, loader: RunnerArgs -> Option<DagModel.Dag>,
    setup: SetupOutcome, suffix: nat, sessionObs: seq<Reading<SessionStatus>>,
    submitFails: bool, dagObs: seq<Reading<DagState>>, stopFails: bool): (m: MainRecord)
    requires suffix < Staging.SuffixBound
    ensures |args| != 1 && |args| != 2 ==> m == MainRecord(Exited(UsageExit), [])
    ensures |args| == 1 || |args| == 2 ==>
      var r := Run(setup, suffix, sessionObs, loader(ParseArgs(args).value), submitFails, dagObs, stopFails);
      && m.trace == r.trace
      && (m.termination == Exited(0) <==> r.outcome == Returned(true))
      && (m.termination == Exited(FailureExit) <==> r.outcome == Returned(false))
      && (r.outcome.Raised? ==> m.termination == Threw(r.outcome.error))
      && (m.termination == Waiting <==> r.outcome.StillPolling?)
  {
    match ParseArgs(args)
    case None => MainRecord(Exited(UsageExit), [])
    case Some(a) =>
      var r := Run(setup, suffix, sessionObs, loader(a), submitFails, dagObs, stopFails);
      var termination := match r.outcome
        case Returned(true) => Exited(0)
        case Returned(false) => Exited(FailureExit)
        case Raised(e) => Threw(e)
        case StillPolling => Waiting;
      MainRecord(termination, r.trace)
  }

  /**
   * The session becomes READY, the DAG goes through SUBMITTED and RUNNING to
   * SUCCEEDED, and the stop succeeds: the run succeeds, submits once, polls
   * the DAG three times and stops the session once.
   */
  lemma SucceedingScenario(suffix: nat, dag: DagModel.Dag)
    requires suffix < Staging.SuffixBound
    ensures var r := Run(SetupOk, suffix, [Got(Initializing), Got(Ready)], Some(dag), false,
                         [Got(Submitted), Got(DagState.Running), Got(Succeeded)], false);
      && r.outcome == Returned(true)
      && Count(r.trace, SubmitDag(dag)) == 1
      && Count(r.trace, PollDagStatus) == 3
      && Count(r.trace, StopSession) == 1
  {
    var sessionObs := [Got(Initializing), Got(Ready)];
    var dagObs := [Got(Submitted), Got(DagState.Running), Got(Succeeded)];
    assert IsFirst(sessionObs, SessionDone, 1);
    assert FirstIs(sessionObs, SessionDone, Got(Ready));
    assert IsFirst(dagObs, DagDone, 2);
    RunResultAndPolls(suffix, sessionObs, dag, dagObs, false, 2);
    RunTearsDownOnce(suffix, sessionObs, Some(dag), false, dagObs, false);
    RunSubmitsExactlyOnce(suffix, sessionObs, dag, false, dagObs, false);
  }

  /**
   * The same succeeding DAG, but `stop()` throws in the finally block: the
   * stop's exception escapes `run`, so `main` neither exits 0 nor 2.
   */
  lemma StopFailureScenario(suffix: nat, dag: DagModel.Dag, args: seq<string>)
    requires suffix < Staging.SuffixBound
    requires |args| == 1
    ensures var r := Run(SetupOk, suffix, [Got(Initializing), Got(Ready)], Some(dag), false,
                         [Got(Submitted), Got(DagState.Running), Got(Succeeded)], true);
      && r.outcome == Raised(SessionStopFailed)
      && Count(r.trace, SubmitDag(dag)) == 1
      && Count(r.trace, StopSession) == 1
    ensures Main(args, _ => Some(dag), SetupOk, suffix, [Got(Initializing), Got(Ready)], false,
                 [Got(Submitted), Got(DagState.Running), Got(Succeeded)], true).termination == Threw(SessionStopFailed)
  {
    var sessionObs := [Got(Initializing), Got(Ready)];
    var dagObs := [Got(Submitted), Got(DagState.Running), Got(Succeeded)];
    assert IsFirst(sessionObs, SessionDone, 1);
    assert FirstIs(sessionObs, SessionDone, Got(Ready));
    assert IsFirst(dagObs, DagDone, 2);
    RunResultAndPolls(suffix, sessionObs, dag, dagObs, true, 2);
    RunTearsDownOnce(suffix, sessionObs, Some(dag), false, dagObs, true);
    RunSubmitsExactlyOnce(suffix, sessionObs, dag, false, dagObs, true);
  }

  /**
   * The session goes INITIALIZING then SHUTDOWN: nothing is submitted, the
   * shutdown error surfaces (or the stop's, when `stop()` throws), and the
   * session is stopped once.
   */
  lemma ShutdownScenario(suffix: nat, loaded: Option<DagModel.Dag>, submitFails: bool, dagObs: seq<Reading<DagState>>, stopFails: bool)
    requires suffix < Staging.SuffixBound
    ensures var r := Run(SetupOk, suffix, [Got(Initializing), Got(Shutdown)], loaded, submitFails, dagObs, stopFails);
      && r.outcome == (if stopFails then Raised(SessionStopFailed) else Raised(UnexpectedSessionShutdown))
      && (forall i :: 0 <= i < |r.trace| ==> !r.trace[i].SubmitDag?)
      && Count(r.trace, StopSession) == 1
  {
    var sessionObs := [Got(Initializing), Got(Shutdown)];
    assert IsFirst(sessionObs, SessionDone, 1);
    assert FirstIs(sessionObs, SessionDone, Got(Shutdown));
    ShutdownNeverSubmits(suffix, sessionObs, loaded, submitFails, dagObs, stopFails);
    RunTearsDownOnce(suffix, sessionObs, loaded, submitFails, dagObs, stopFails);
  }

  /**
   * The session is INITIALIZING and the next status read throws: the
   * exception escapes (or the stop's, when `stop()` throws too), nothing is
   * submitted, and the session is still stopped once.
   */
  lemma StatusReadFailureScenario(suffix: nat, loaded: Option<DagModel.Dag>, submitFails: bool, dagObs: seq<Reading<DagState>>, stopFails: bool)
    requires suffix < Staging.SuffixBound
    ensures var r := Run(SetupOk, suffix, [Got(Initializing), ReadFailed], loaded, submitFails, dagObs, stopFails);
      && r.outcome == (if stopFails then Raised(SessionStopFailed) else Raised(ClusterCallFailed))
      && (forall i :: 0 <= i < |r.trace| ==> !r.trace[i].SubmitDag?)
      && Count(r.trace, StopSession) == 1
  {
    var sessionObs: seq<Reading<SessionStatus>> := [Got(Initializing), ReadFailed];
    assert IsFirst(sessionObs, SessionDone, 1);
    assert FirstIs(sessionObs, SessionDone, ReadFailed);
    assert !FirstIs(sessionObs, SessionDone, Got(Ready));
    GuardedCallFailure(sessionObs, loaded, submitFails, dagObs, stopFails);
    RunSubmitsOnlyWhenReady(SetupOk, suffix, sessionObs, loaded, submitFails, dagObs, stopFails);
    RunTearsDownOnce(suffix, sessionObs, loaded, submitFails, dagObs, stopFails);
  }
}

=== FILE: processors.dfy ===
/**
 * The two processors of the word-count DAG. `TokenProcessor` emits a
 * (word, 1) pair for every token of every input line; `SumProcessor` emits,
 * per key group delivered by the shuffle, the key with the sum of its values,
 * accumulated in a Java `int`. The shuffle that groups the tokenizer's pairs
 * by key runs outside both processors; `GroupedBy` states what it is assumed
 * to deliver.
 */
module Processors {
  import opened Wrappers
  import Tokenizer

  /** Java `int`. */
  type Int32 = x: int | -0x8000_0000 <= x < 0x8000_0000

  const Modulus: int := 0x1_0000_0000
  const Half: int := 0x8000_0000

  /** Two's-complement wrap-around of a mathematical integer into `int`. */
  function Wrap32(x: int): (r: Int32)
    ensures (x - r) % Modulus == 0
    ensures -Half <= x < Half ==> r == x
  {
    var m := (x + Half) % Modulus;
    assert x - (m - Half) == ((x + Half) / Modulus) * Modulus;
    m - Half
  }

  lemma WrapAddWrapped(x: int, y: int)
    ensures Wrap32(Wrap32(x) + y) == Wrap32(x + y)
  {
    var q := (x + Half) / Modulus;
    assert Wrap32(x) + y + Half == (x + y + Half) - q * Modulus;
    ModShift(x + y + Half, q);
  }

  lemma ModShift(z: int, q: int)
    ensures (z - q * Modulus) % Modulus == z % Modulus
  {
    var a := z / Modulus;
    var b := z % Modulus;
    assert z - q * Modulus == (a - q) * Modulus + b;
  }

  /** A record the processors read or write: a key and an `IntWritable` value. */
  datatype KeyValue = KeyValue(key: string, value: Int32)

  /** `Preconditions.checkArgument` failing, or `iterator().next()` on an empty map. */
  datatype ProcessorError = IllegalArgument | NoSuchElement

  /** The tokens of every line, line after line. */
  function Words(lines: seq<string>): seq<string> {
    if |lines| == 0 then [] else Tokenizer.Tokens(lines[0]) + Words(lines[1..])
  }

  /** How often `w` occurs as a token across all lines. */
  function Occurrences(w: string, lines: seq<string>): nat {
    multiset(Words(lines))[w]
  }

  /** One (token, 1) pair per token of each word of a line. */
  function Ones(ws: seq<string>): (r: seq<KeyValue>)
    ensures |r| == |ws|
    ensures forall i :: 0 <= i < |r| ==> r[i] == KeyValue(ws[i], 1)
  {
    if |ws| == 0 then [] else [KeyValue(ws[0], 1)] + Ones(ws[1..])
  }

  /** What the tokenizer writes for its input lines: one (token, 1) pair per token, in input order. */
  function Emit(lines: seq<string>): (r: seq<KeyValue>)
    ensures |r| == |Words(lines)|
    ensures forall i :: 0 <= i < |r| ==> r[i] == KeyValue(Words(lines)[i], 1)
  {
    if |lines| == 0 then [] else Ones(Tokenizer.Tokens(lines[0])) + Emit(lines[1..])
  }

  /** `TokenProcessor.run`: exactly one input and one output are required. */
  function TokenProcessor(inputCount: nat, outputCount: nat, lines: seq<string>): (r: Result<seq<KeyValue>, ProcessorError>)
    ensures r.Failure? <==> inputCount != 1 || outputCount != 1
    ensures r.Failure? ==> r.error == IllegalArgument
    ensures r.Success? ==>
      |r.value| == |Words(lines)| &&
      forall i :: 0 <= i < |r.value| ==> r.value[i].key == Words(lines)[i] && r.value[i].value == 1
  {
    if inputCount != 1 || outputCount != 1 then Failure(IllegalArgument)
    else Success(Emit(lines))
  }

  /** The mathematical sum; the reference for the processor's accumulation. */
  function Sum(vs: seq<int>): int {
    if |vs| == 0 then 0 else vs[0] + Sum(vs[1..])
  }

  /** `sum += value` over `vs`, starting from `acc`, in `int` arithmetic. */
  function Accumulate(acc: Int32, vs: seq<Int32>): (r: Int32)
    ensures r == Wrap32(acc + Sum(vs))
    decreases |vs|
  {
    if |vs| == 0 then acc
    else
      var r := Accumulate(Wrap32(acc + vs[0]), vs[1..]);
      WrapAddWrapped(acc + vs[0], Sum(vs[1..]));
      r
  }

  /** A key with all the values the shuffle collected for it. */
  datatype Group = Group(key: string, values: seq<Int32>)

  /** One output record per group: its key and its values' sum. */
  function SumGroups(groups: seq<Group>): (r: seq<KeyValue>)
    ensures |r| == |groups|
    ensures forall i :: 0 <= i < |r| ==>
      r[i].key == groups[i].key && r[i].value == Wrap32(Sum(groups[i].values))
  {
    if |groups| == 0 then []
    else [KeyValue(groups[0].key, Accumulate(0, groups[0].values))] + SumGroups(groups[1..])
  }

  /**
   * `SumProcessor.run`: exactly one input is required; the output is taken
   * without a count check, so having none fails when it is fetched and extra
   * outputs are ignored. Each group's key is written once with its sum; an
   * empty group gives 0.
   */
  function SumProcessor(inputCount: nat, outputCount: nat, groups: seq<Group>): (r: Result<seq<KeyValue>, ProcessorError>)
    ensures inputCount != 1 ==> r == Failure(IllegalArgument)
    ensures inputCount == 1 && outputCount == 0 ==> r == Failure(NoSuchElement)
    ensures r.Success? <==> inputCount == 1 && outputCount >= 1
    ensures r.Success? ==>
      |r.value| == |groups| &&
      forall i :: 0 <= i < |groups| ==>
        r.value[i].key == groups[i].key &&
        r.value[i].value == Wrap32(Sum(groups[i].values)) &&
        (groups[i].values == [] ==> r.value[i].value == 0)
  {
    if inputCount != 1 then Failure(IllegalArgument)
    else if outputCount == 0 then Failure(NoSuchElement)
    else Success(SumGroups(groups))
  }

  function Keys(e: seq<KeyValue>): (r: seq<string>)
    ensures |r| == |e|
    ensures forall i :: 0 <= i < |e| ==> r[i] == e[i].key
  {
    if |e| == 0 then [] else [e[0].key] + Keys(e[1..])
  }

  /** The values of the records with key `k`, in order. */
  function ValuesFor(k: string, e: seq<KeyValue>): seq<Int32> {
    if |e| == 0 then []
    else if e[0].key == k then [e[0].value] + ValuesFor(k, e[1..])
    else ValuesFor(k, e[1..])
  }

  /**
   * What the shuffle is assumed to deliver from records `e`: groups with
   * distinct keys, a group for every key written, and each group holding
   * exactly that key's values, in some order.
   */
  ghost predicate GroupedBy(e: seq<KeyValue>, groups: seq<Group>) {
    && (forall i, j :: 0 <= i < j < |groups| ==> groups[i].key != groups[j].key)
    && (forall i :: 0 <= i < |e| ==> exists g :: 0 <= g < |groups| && groups[g].key == e[i].key)
    && (forall g :: 0 <= g < |groups| ==> multiset(groups[g].values) == multiset(ValuesFor(groups[g].key, e)))
  }

  lemma {:induction false} ValuesForOnes(k: string, e: seq<KeyValue>)
    requires forall i :: 0 <= i < |e| ==> e[i].value == 1
    ensures forall x :: x in ValuesFor(k, e) ==> x == 1
    ensures |ValuesFor(k, e)| == multiset(Keys(e))[k]
    decreases |e|
  {
    if |e| > 0 {
      ValuesForOnes(k, e[1..]);
      assert Keys(e) == [e[0].key] + Keys(e[1..]);
    }
  }

  lemma {:induction false} SumOfOnes(vs: seq<int>)
    requires forall x :: x in vs ==> x == 1
    ensures Sum(vs) == |vs|
    decreases |vs|
  {
    if |vs| > 0 {
      assert vs[0] in vs;
      assert forall x :: x in vs[1..] ==> x in vs;
      SumOfOnes(vs[1..]);
    }
  }

  lemma {:induction false} KeysOfEmit(lines: seq<string>)
    ensures Keys(Emit(lines)) == Words(lines)
  {
  }

  /** A group drawn from records all valued 1 sums to the number of records with its key. */
  lemma GroupSumIsCount(e: seq<KeyValue>, g: Group)
    requires forall i :: 0 <= i < |e| ==> e[i].value == 1
    requires multiset(g.values) == multiset(ValuesFor(g.key, e))
    ensures Sum(g.values) == multiset(Keys(e))[g.key]
  {
    ValuesForOnes(g.key, e);
    var vs := ValuesFor(g.key, e);
    forall x | x in g.values ensures x == 1 {
      assert x in multiset(g.values);
      assert x in multiset(vs);
      assert x in vs;
    }
    assert |g.values| == |multiset(g.values)| == |multiset(vs)| == |vs|;
    SumOfOnes(g.values);
  }

  /** A group holding exactly one word's records sums to that word's number of occurrences. */
  lemma GroupCountsOccurrences(lines: seq<string>, g: Group)
    requires multiset(g.values) == multiset(ValuesFor(g.key, Emit(lines)))
    ensures Sum(g.values) == Occurrences(g.key, lines)
  {
    var e := Emit(lines);
    KeysOfEmit(lines);
    GroupSumIsCount(e, g);
  }

  /** Every word of the input has a group when the shuffle groups the tokenizer's records. */
  lemma GroupsCoverWords(lines: seq<string>, groups: seq<Group>, w: string)
    requires GroupedBy(Emit(lines), groups)
    requires w in Words(lines)
    ensures exists g :: 0 <= g < |groups| && groups[g].key == w
  {
    var e := Emit(lines);
    var k :| 0 <= k < |Words(lines)| && Words(lines)[k] == w;
    assert e[k].key == w;
  }

  /**
   * End to end: if the shuffle groups the tokenizer's records by key, the
   * summer writes every word of the input exactly once, each with its number
   * of occurrences across all lines (wrapped to `int`, so exact below 2^31).
   */
  lemma WordCountsOccurrences(lines: seq<string>, groups: seq<Group>)
    requires GroupedBy(Emit(lines), groups)
    ensures var out := SumGroups(groups);
      && (forall i :: 0 <= i < |out| ==> out[i].value == Wrap32(Occurrences(out[i].key, lines)))
      && (forall i, j :: 0 <= i < j < |out| ==> out[i].key != out[j].key)
      && (forall w :: w in Words(lines) ==> exists i :: 0 <= i < |out| && out[i].key == w)
  {
    var out := SumGroups(groups);
    forall i | 0 <= i < |out|
      ensures out[i].value == Wrap32(Occurrences(out[i].key, lines))
    {
      GroupCountsOccurrences(lines, groups[i]);
    }
    forall w | w in Words(lines)
      ensures exists i :: 0 <= i < |out| && out[i].key == w
    {
      GroupsCoverWords(lines, groups, w);
      var g :| 0 <= g < |groups| && groups[g].key == w;
      assert out[g].key == w;
    }
  }
}

=== FILE: protocol.dfy ===
/**
 * The session/DAG client protocol both drivers follow: the statuses they
 * observe, the effects they have on the cluster and filesystem, and the
 * poll-until-settled loop they use to wait for a status.
 *
 * Statuses come from an oracle: a finite sequence of what successive
 * `getSessionStatus` / `getDAGStatus` calls return. When the sequence runs
 * out before the awaited status, the driver would still be polling.
 */
module Protocol {
  import DagModel

  /** `TezSessionStatus`. */
  datatype SessionStatus = Initializing | Ready | Running | Shutdown

  /** The statuses the runner's readiness loop stops on. */
  predicate SessionSettled(s: SessionStatus) {
    s == Ready || s == Shutdown
  }

  /** `DAGStatus.State`. */
  datatype DagState = Submitted | Running | Succeeded | Failed | Killed | Error

  /** `DAGStatus.isCompleted`: the DAG has reached a terminal state. */
  predicate IsCompleted(s: DagState) {
    s == Succeeded || s == Failed || s == Killed || s == Error
  }

  /** What one status read gives: the status, or an exception from the call. */
  datatype Reading<T> = Got(value: T) | ReadFailed

  /** The runner's readiness loop stops on READY, on SHUTDOWN, and when a status read throws. */
  predicate SessionDone(r: Reading<SessionStatus>) {
    match r
    case Got(s) => SessionSettled(s)
    case ReadFailed => true
  }

  /** The runner's DAG loop stops on a completed state, and when a status read throws. */
  predicate DagDone(r: Reading<DagState>) {
    match r
    case Got(s) => IsCompleted(s)
    case ReadFailed => true
  }

  /**
   * Calls a driver makes that the cluster, the filesystem or the credential
   * store can observe. A call is recorded when it is made, whether it then
   * returns or throws.
   */
  datatype Effect =
    | ObtainCredentials(path: string)
    | EnsureStagingDir(path: string)
    | StartSession
    | PollSessionStatus
    | ProbeOutputDir(path: string)
    | AwaitSessionReady
    | SubmitDag(dag: DagModel.Dag)
    | PollDagStatus
    | AwaitDagCompletion
    | DeleteStagingDir(path: string)
    | StopSession

  /**
   * Exceptions a driver's `run` lets escape. `SetupLookupFailed` is one from
   * building the configuration or looking up the user, application or file
   * system before setup has any effect; `ClusterCallFailed` is any exception
   * from a session, DAG-client or filesystem call inside the guarded
   * section; `StagingDeleteFailed` and `SessionStopFailed` come from the
   * finally block, deleting the staging directory and stopping the session.
   */
  datatype RunError =
    | SetupLookupFailed
    | CredentialsFailed
    | StagingFailed
    | SessionStartFailed
    | UnexpectedSessionShutdown
    | DagLoadFailed
    | OutputAlreadyExists
    | SessionNotReady
    | ClusterCallFailed
    | StagingDeleteFailed
    | SessionStopFailed

  /** How a `run` call ends: a returned boolean, a thrown exception, or still waiting on the cluster. */
  datatype Outcome = Returned(succeeded: bool) | Raised(error: RunError) | StillPolling

  /** The outcome of one `run` together with the effects it had, in order. */
  datatype RunRecord = RunRecord(outcome: Outcome, trace: seq<Effect>)

  /**
   * The outcome once the finally block has stopped the session: an exception
   * from `stop()` replaces whatever the guarded section returned or raised.
   */
  function AfterStop(o: Outcome, stopFails: bool): Outcome {
    if stopFails then Raised(SessionStopFailed) else o
  }

  /** Number of times `e` appears in trace `t`. */
  function Count(t: seq<Effect>, e: Effect): nat {
    multiset(t)[e]
  }

  /** `k` is the first position of `obs` at which `done` holds. */
  ghost predicate IsFirst<T>(obs: seq<T>, done: T -> bool, k: int) {
    0 <= k < |obs| && done(obs[k]) && forall j :: 0 <= j < k ==> !done(obs[j])
  }

  /** There is at most one first position. */
  lemma IsFirstUnique<T>(obs: seq<T>, done: T -> bool)
    ensures forall j, k :: IsFirst(obs, done, j) && IsFirst(obs, done, k) ==> j == k
  {
  }

  /** The first observation satisfying `done` exists and is `s`. */
  ghost predicate FirstIs<T>(obs: seq<T>, done: T -> bool, s: T) {
    exists k :: IsFirst(obs, done, k) && obs[k] == s
  }

  datatype PollResult<T> = Settled(polls: nat, last: T) | Exhausted

  /**
   * Poll until `done`: read one status, and while it is not `done` read the
   * next. Settles after exactly as many reads as it takes to reach the first
   * `done` observation, and never reads past it.
   */
  function PollUntil<T>(obs: seq<T>, done: T -> bool): (r: PollResult<T>)
    ensures r.Settled? ==> IsFirst(obs, done, r.polls - 1) && r.last == obs[r.polls - 1]
    ensures r.Exhausted? <==> forall j :: 0 <= j < |obs| ==> !done(obs[j])
  {
    if |obs| == 0 then Exhausted
    else if done(obs[0]) then Settled(1, obs[0])
    else match PollUntil(obs[1..], done)
      case Exhausted => Exhausted
      case Settled(n, last) => Settled(n + 1, last)
  }

  /** The status a settled poll ends on is the first `done` one, and no other status is. */
  lemma PollUntilFirstIs<T>(obs: seq<T>, done: T -> bool, s: T)
    ensures PollUntil(obs, done).Settled? ==> (FirstIs(obs, done, s) <==> s == PollUntil(obs, done).last)
    ensures PollUntil(obs, done).Exhausted? ==> !FirstIs(obs, done, s)
  {
    var r := PollUntil(obs, done);
    if r.Settled? {
      if FirstIs(obs, done, s) {
        var k :| IsFirst(obs, done, k) && obs[k] == s;
        assert IsFirst(obs, done, r.polls - 1);
      }
      if s == r.last {
        assert IsFirst(obs, done, r.polls - 1);
      }
    }
  }

  /** `n` copies of effect `e`. */
  function Repeat(e: Effect, n: nat): (t: seq<Effect>)
    ensures |t| == n
    ensures forall i :: 0 <= i < n ==> t[i] == e
  {
    if n == 0 then [] else [e] + Repeat(e, n - 1)
  }

  lemma {:induction false} RepeatCount(e: Effect, n: nat, f: Effect)
    ensures Count(Repeat(e, n), f) == if f == e then n else 0
  {
    if n > 0 {
      assert Repeat(e, n) == [e] + Repeat(e, n - 1);
      RepeatCount(e, n - 1, f);
    }
  }
}

=== FILE: staging.dfy ===
/**
 * Staging-directory names built by the two drivers: the fault-tolerance
 * runner's "tmp/<random suffix>" and WordCount's per-application
 * "/user/<user>/.staging//<appId>".
 */
module Staging {
  import opened Wrappers
  import Decimal

  /** Hadoop's `Path.SEPARATOR`. */
  const Separator: char := '/'

  /** `FaultToleranceTestRunner.TEST_ROOT_DIR`. */
  const TestRootDir: string := "tmp"

  /** Exclusive upper bound of the runner's `Random.nextInt` suffix. */
  const SuffixBound: nat := 100000

  /**
   * The runner's staging directory: `new Path(TEST_ROOT_DIR, String.valueOf(suffix))`,
   * before the filesystem qualifies it.
   */
  function RunnerStagingDir(suffix: nat): (dir: string)
    requires suffix < SuffixBound
    ensures |TestRootDir| + 2 <= |dir| <= |TestRootDir| + 6
    ensures dir[..|TestRootDir| + 1] == TestRootDir + [Separator]
    ensures Decimal.Canonical(dir[|TestRootDir| + 1..])
  {
    Decimal.FromNatLength(suffix);
    TestRootDir + [Separator] + Decimal.FromNat(suffix)
  }

  /** Reads the suffix back from a runner staging directory name. */
  function RunnerSuffix(dir: string): Option<nat> {
    var prefix := TestRootDir + [Separator];
    if |dir| > |prefix| && dir[..|prefix|] == prefix && Decimal.Canonical(dir[|prefix|..])
    then Some(Decimal.ToNat(dir[|prefix|..]))
    else None
  }

  /** The suffix can be recovered from the directory name, so distinct suffixes give distinct directories. */
  lemma RunnerStagingDirRoundTrip(suffix: nat)
    requires suffix < SuffixBound
    ensures RunnerSuffix(RunnerStagingDir(suffix)) == Some(suffix)
  {
    var dir := RunnerStagingDir(suffix);
    assert dir[|TestRootDir| + 1..] == Decimal.FromNat(suffix);
    Decimal.ToNatFromNat(suffix);
  }

  lemma RunnerStagingDirInjective(a: nat, b: nat)
    requires a < SuffixBound && b < SuffixBound
    requires RunnerStagingDir(a) == RunnerStagingDir(b)
    ensures a == b
  {
    RunnerStagingDirRoundTrip(a);
    RunnerStagingDirRoundTrip(b);
  }

  const UserDir: string := "user"
  const StagingName: string := ".staging"

  /**
   * WordCount's staging directory string. The separator after ".staging" is
   * written twice by the driver, so the string holds an empty path component.
   */
  function WordCountStagingDir(user: string, appId: string): string {
    [Separator] + UserDir + [Separator] + user + [Separator] + StagingName + [Separator] + [Separator] + appId
  }

  /** Index of the first occurrence of `c` in `s`. */
  function IndexOf(s: string, c: char): (r: Option<nat>)
    ensures r.Some? ==> r.value < |s| && s[r.value] == c && c !in s[..r.value]
    ensures r.None? ==> c !in s
  {
    if |s| == 0 then None
    else if s[0] == c then Some(0)
    else match IndexOf(s[1..], c)
      case None => None
      case Some(k) =>
        assert s[..k + 1] == [s[0]] + s[1..][..k];
        Some(k + 1)
  }

  /** Splits a WordCount staging directory back into its user and application id. */
  function ParseWordCountStagingDir(path: string): Option<(string, string)> {
    var head := [Separator] + UserDir + [Separator];
    var tail := [Separator] + StagingName + [Separator] + [Separator];
    if |path| < |head| || path[..|head|] != head then None
    else
      var rest := path[|head|..];
      match IndexOf(rest, Separator)
      case None => None
      case Some(k) =>
        var after := rest[k..];
        if |after| < |tail| || after[..|tail|] != tail then None
        else Some((rest[..k], after[|tail|..]))
  }

  /** A user name without a separator is recovered from the staging directory, as is the application id. */
  lemma WordCountStagingDirRoundTrip(user: string, appId: string)
    requires Separator !in user
    ensures ParseWordCountStagingDir(WordCountStagingDir(user, appId)) == Some((user, appId))
  {
    var path := WordCountStagingDir(user, appId);
    var head := [Separator] + UserDir + [Separator];
    var tail := [Separator] + StagingName + [Separator] + [Separator];
    var rest := user + (tail + appId);
    assert path == head + rest;
    assert path[..|head|] == head;
    assert path[|head|..] == rest;
    IndexOfPrefixFree(user, tail + appId, Separator);
    var after := rest[|user|..];
    assert after == tail + appId;
    assert after[..|tail|] == tail;
    assert after[|tail|..] == appId;
    assert rest[..|user|] == user;
  }

  lemma IndexOfPrefixFree(a: string, b: string, c: char)
    requires c !in a && |b| > 0 && b[0] == c
    ensures IndexOf(a + b, c) == Some(|a|)
  {
    if |a| > 0 {
      assert (a + b)[1..] == a[1..] + b;
      IndexOfPrefixFree(a[1..], b, c);
    }
  }

  /** The staging directory is the fixed head, the user, the fixed tail, then the application id. */
  lemma WordCountStagingDirParts(user: string, appId: string)
    ensures WordCountStagingDir(user, appId) ==
      ([Separator] + UserDir + [Separator]) + (user + (([Separator] + StagingName + [Separator] + [Separator]) + appId))
  {
  }

  /** Every successful parse names a directory that the driver would build. */
  lemma ParseWordCountStagingDirSound(path: string)
    requires ParseWordCountStagingDir(path).Some?
    ensures var (user, appId) := ParseWordCountStagingDir(path).value;
      Separator !in user && path == WordCountStagingDir(user, appId)
  {
    var head := [Separator] + UserDir + [Separator];
    var tail := [Separator] + StagingName + [Separator] + [Separator];
    var rest := path[|head|..];
    var k := IndexOf(rest, Separator).value;
    var after := rest[k..];
    var user := rest[..k];
    var appId := after[|tail|..];
    assert ParseWordCountStagingDir(path).value == (user, appId);
    assert after == tail + appId;
    assert rest == user + after;
    assert path == head + rest;
    WordCountStagingDirParts(user, appId);
  }

  /** Directories of distinct (separator-free user, application) pairs never collide. */
  lemma WordCountStagingDirInjective(u1: string, a1: string, u2: string, a2: string)
    requires Separator !in u1 && Separator !in u2
    requires WordCountStagingDir(u1, a1) == WordCountStagingDir(u2, a2)
    ensures u1 == u2 && a1 == a2
  {
    WordCountStagingDirRoundTrip(u1, a1);
    WordCountStagingDirRoundTrip(u2, a2);
  }
}

=== FILE: tokenizer.dfy ===
/**
 * `java.util.StringTokenizer` with its default delimiter set, as
 * `TokenProcessor` uses it to split each input line into words.
 */
module Tokenizer {

  /** The default delimiters: space, tab, newline, carriage return and form feed. */
  predicate IsDelimiter(c: char) {
    c == ' ' || c == '\t' || c == '\n' || c == '\r' || c == '\U{000C}'
  }

  predicate NoDelimiters(s: string) {
    forall i :: 0 <= i < |s| ==> !IsDelimiter(s[i])
  }

  /** A token: a non-empty run of non-delimiters. */
  predicate IsWord(w: string) {
    |w| > 0 && NoDelimiters(w)
  }

  /** Length of the longest delimiter-free prefix. */
  function WordLength(s: string): (n: nat)
    ensures n <= |s|
    ensures NoDelimiters(s[..n])
    ensures n == |s| || IsDelimiter(s[n])
  {
    if |s| == 0 || IsDelimiter(s[0]) then 0
    else
      var m := WordLength(s[1..]);
      assert s[..m + 1] == [s[0]] + s[1..][..m];
      m + 1
  }

  /** The tokens of `s`, in order: the maximal delimiter-free runs. */
  function Tokens(s: string): (r: seq<string>)
    ensures forall i :: 0 <= i < |r| ==> IsWord(r[i])
    decreases |s|
  {
    if |s| == 0 then []
    else if IsDelimiter(s[0]) then Tokens(s[1..])
    else
      var n := WordLength(s);
      [s[..n]] + Tokens(s[n..])
  }

  /** Concatenation of a sequence of strings. */
  function Concat(ws: seq<string>): string {
    if |ws| == 0 then [] else ws[0] + Concat(ws[1..])
  }

  /** `s` with every delimiter removed; the reference for what the tokens cover. */
  function StripDelimiters(s: string): (r: string)
    ensures NoDelimiters(r)
  {
    if |s| == 0 then []
    else if IsDelimiter(s[0]) then StripDelimiters(s[1..])
    else [s[0]] + StripDelimiters(s[1..])
  }

  /** Words joined by single spaces: the inverse of `Tokens` on words. */
  function JoinWords(ws: seq<string>): string {
    if |ws| == 0 then []
    else if |ws| == 1 then ws[0]
    else ws[0] + " " + JoinWords(ws[1..])
  }

  lemma {:induction false} StripAppend(a: string, b: string)
    ensures StripDelimiters(a + b) == StripDelimiters(a) + StripDelimiters(b)
    decreases |a|
  {
    if |a| > 0 {
      assert (a + b)[0] == a[0];
      assert (a + b)[1..] == a[1..] + b;
      StripAppend(a[1..], b);
    } else {
      assert a + b == b;
    }
  }

  lemma {:induction false} StripWord(w: string)
    requires NoDelimiters(w)
    ensures StripDelimiters(w) == w
    decreases |w|
  {
    if |w| > 0 {
      StripWord(w[1..]);
      assert w == [w[0]] + w[1..];
    }
  }

  /** Nothing is lost or reordered: the tokens, concatenated, are exactly the non-delimiter characters of `s`. */
  lemma {:induction false} TokensCoverText(s: string)
    ensures Concat(Tokens(s)) == StripDelimiters(s)
    decreases |s|
  {
    if |s| > 0 {
      if IsDelimiter(s[0]) {
        TokensCoverText(s[1..]);
      } else {
        var n := WordLength(s);
        var r := Tokens(s);
        assert r[1..] == Tokens(s[n..]);
        TokensCoverText(s[n..]);
        assert s == s[..n] + s[n..];
        StripAppend(s[..n], s[n..]);
        StripWord(s[..n]);
      }
    }
  }

  lemma {:induction false} WordLengthOfWord(w: string, t: string)
    requires NoDelimiters(w)
    requires |t| == 0 || IsDelimiter(t[0])
    ensures WordLength(w + t) == |w|
    decreases |w|
  {
    if |w| > 0 {
      assert (w + t)[1..] == w[1..] + t;
      WordLengthOfWord(w[1..], t);
    } else {
      assert w + t == t;
    }
  }

  /** Splitting words joined by spaces gives the words back. */
  lemma {:induction false} TokensOfJoinedWords(ws: seq<string>)
    requires forall i :: 0 <= i < |ws| ==> IsWord(ws[i])
    ensures Tokens(JoinWords(ws)) == ws
    decreases |ws|
  {
    if |ws| == 1 {
      var w := ws[0];
      WordLengthOfWord(w, []);
      assert w + [] == w;
      assert w[|w|..] == [];
      assert w[..|w|] == w;
    } else if |ws| > 1 {
      var w := ws[0];
      var rest := JoinWords(ws[1..]);
      var s := w + (" " + rest);
      assert JoinWords(ws) == s;
      WordLengthOfWord(w, " " + rest);
      assert s[..|w|] == w;
      assert s[|w|..] == " " + rest;
      assert (" " + rest)[1..] == rest;
      TokensOfJoinedWords(ws[1..]);
      assert ws == [w] + ws[1..];
    }
  }

  /** A line holding one word yields that word alone. */
  lemma {:induction false} TokensOfSingleWord(w: string)
    requires IsWord(w)
    ensures Tokens(w) == [w]
  {
    TokensOfJoinedWords([w]);
  }

  /** A line of delimiters only yields no token. */
  lemma {:induction false} TokensOfBlank(s: string)
    requires forall i :: 0 <= i < |s| ==> IsDelimiter(s[i])
    ensures Tokens(s) == []
    decreases |s|
  {
    if |s| > 0 {
      TokensOfBlank(s[1..]);
    }
  }

  /**
   * Tokens are maximal: a delimiter always separates tokens, so the tokens of
   * `a`, a delimiter, then `b` are the tokens of `a` followed by those of `b`.
   * No token spans a delimiter.
   */
  lemma {:induction false} TokensSplit(a: string, c: char, b: string)
    requires IsDelimiter(c)
    ensures Tokens(a + [c] + b) == Tokens(a) + Tokens(b)
    decreases |a|
  {
    var s := a + [c] + b;
    if |a| == 0 {
      assert s == [c] + b;
      assert s[1..] == b;
    } else if IsDelimiter(a[0]) {
      assert s[0] == a[0];
      assert s[1..] == a[1..] + [c] + b;
      TokensSplit(a[1..], c, b);
    } else {
      var m := WordLength(a);
      var t := a[m..] + [c] + b;
      assert t[0] == (if m < |a| then a[m] else c);
      assert s == a[..m] + t;
      WordLengthOfWord(a[..m], t);
      assert s[0] == a[0];
      assert s[..m] == a[..m];
      assert s[m..] == t;
      assert Tokens(a) == [a[..m]] + Tokens(a[m..]);
      assert Tokens(s) == [a[..m]] + Tokens(t);
      TokensSplit(a[m..], c, b);
    }
  }
}

=== FILE: word_count_job.dfy ===
/**
 * The WordCount driver: `run(inputPath, outputPath, conf)` stages a
 * per-application directory, starts a session, refuses an existing output
 * directory, submits the two-vertex word-count DAG and waits for it, deleting
 * the staging directory and then stopping the session in a finally block.
 * `run(String[])` maps the argument count to an exit status.
 */
module WordCountJob {
  import opened Wrappers
  import opened Protocol
  import DagModel
  import Staging

  /**
   * How far the steps before the `try` get. `LookupFails`: the user,
   * application id or file system lookup throws before anything is touched.
   * `CredentialsFail`: obtaining delegation tokens for the staging directory
   * throws. `StagingFails`: creating the staging directory throws.
   * `StartFails`: building or starting the session throws.
   */
  datatype SetupOutcome = SetupOk | LookupFails | CredentialsFail | StagingFails | StartFails

  /**
   * Effects before the guarded section: credentials for the staging
   * directory, the directory itself, then the session start.
   */
  function SetupTrace(setup: SetupOutcome, dir: string): seq<Effect> {
    match setup
    case LookupFails => []
    case CredentialsFail => [ObtainCredentials(dir)]
    case StagingFails => [ObtainCredentials(dir), EnsureStagingDir(dir)]
    case StartFails | SetupOk => [ObtainCredentials(dir), EnsureStagingDir(dir), StartSession]
  }

  /**
   * The finally block as written: delete the staging directory, then stop
   * the session. When the delete throws, the stop is never reached.
   */
  function Finally(dir: string, deleteFails: bool): (t: seq<Effect>)
    ensures Count(t, DeleteStagingDir(dir)) == 1
    ensures Count(t, StopSession) == (if deleteFails then 0 else 1)
  {
    [DeleteStagingDir(dir)] + (if deleteFails then [] else [StopSession])
  }

  /** The calls of the guarded section that can throw, in the order the driver makes them. */
  datatype Call = ProbeOutput | BuildDag | AwaitReady | Submit | AwaitCompletion

  /** The submission is attempted: none of the calls made before it throws. */
  predicate SubmitReached(failing: Option<Call>) {
    failing.None? || failing.value == Submit || failing.value == AwaitCompletion
  }

  /**
   * How many of the recorded calls are made: the output probe, the readiness
   * wait, the submission and the completion wait. Building the DAG sits
   * between the probe and the wait and records nothing.
   */
  function CallsMade(outputExists: bool, failing: Option<Call>): (n: nat)
    ensures 1 <= n <= 4
    ensures n >= 3 <==> !outputExists && SubmitReached(failing)
    ensures n == 4 <==> !outputExists && (failing.None? || failing == Some(AwaitCompletion))
  {
    if failing == Some(ProbeOutput) || outputExists || failing == Some(BuildDag) then 1
    else if failing == Some(AwaitReady) then 2
    else if failing == Some(Submit) then 3
    else 4
  }

  /**
   * The effects of the guarded section, which submits `dag`: each call is
   * made until one throws or the output directory is found.
   */
  function BodyTrace(outputPath: string, dag: DagModel.Dag, outputExists: bool, failing: Option<Call>): (t: seq<Effect>)
    ensures forall i :: 0 <= i < |t| ==> !t[i].DeleteStagingDir? && t[i] != StopSession
    ensures forall i :: 0 <= i < |t| && t[i].SubmitDag? ==> !outputExists && SubmitReached(failing) && t[i].dag == dag
    ensures Count(t, SubmitDag(dag)) <= 1
    ensures |t| >= 1 && t[0] == ProbeOutputDir(outputPath)
    ensures !outputExists && failing.None? ==> t[1..] == [AwaitSessionReady, SubmitDag(dag), AwaitDagCompletion]
  {
    var probe := ProbeOutputDir(outputPath);
    var n := CallsMade(outputExists, failing);
    if n == 1 then CountAbsent([probe], SubmitDag(dag)); [probe]
    else if n == 2 then CountAbsent([probe, AwaitSessionReady], SubmitDag(dag)); [probe, AwaitSessionReady]
    else if n == 3 then
      CountSingle([probe, AwaitSessionReady], SubmitDag(dag), []);
      [probe, AwaitSessionReady] + [SubmitDag(dag)] + []
    else
      CountSingle([probe, AwaitSessionReady], SubmitDag(dag), [AwaitDagCompletion]);
      [probe, AwaitSessionReady] + [SubmitDag(dag)] + [AwaitDagCompletion]
  }

  /** An effect that does not occur in a trace has count zero. */
  lemma CountAbsent(t: seq<Effect>, e: Effect)
    requires e !in t
    ensures Count(t, e) == 0
  {
  }

  /** An effect that occurs once between two traces free of it has count one. */
  lemma CountSingle(pre: seq<Effect>, e: Effect, post: seq<Effect>)
    requires e !in pre && e !in post
    ensures Count(pre + [e] + post, e) == 1
  {
    assert multiset(pre + [e] + post) == multiset(pre) + multiset{e} + multiset(post);
  }

  /** How the guarded section ends: the first throwing call's error, the existing output, or the DAG's result. */
  function BodyOutcome(outputExists: bool, failing: Option<Call>, final: DagState): (o: Outcome)
    ensures failing == Some(ProbeOutput) ==> o == Raised(ClusterCallFailed)
    ensures outputExists && failing != Some(ProbeOutput) ==> o == Raised(OutputAlreadyExists)
    ensures !outputExists && failing == Some(AwaitReady) ==> o == Raised(SessionNotReady)
    ensures !outputExists && failing.Some? && failing.value != AwaitReady ==> o == Raised(ClusterCallFailed)
    ensures o.Returned? <==> !outputExists && failing.None?
    ensures o.Returned? ==> (o.succeeded <==> final == Succeeded)
  {
    if failing == Some(ProbeOutput) then Raised(ClusterCallFailed)
    else if outputExists then Raised(OutputAlreadyExists)
    else if failing == Some(AwaitReady) then Raised(SessionNotReady)
    else if failing.Some? then Raised(ClusterCallFailed)
    else Returned(final == Succeeded)
  }

  /**
   * The guarded section: refuse an existing output directory, build the DAG,
   * wait for the session, submit, and wait for completion. `failing` is the
   * call that throws, if any (later calls are not made); `final` is the
   * state the completion wait reports.
   */
  function Body(inputPath: string, outputPath: string, outputExists: bool, failing: Option<Call>, final: DagState): (r: RunRecord)
    ensures forall i :: 0 <= i < |r.trace| ==> !r.trace[i].DeleteStagingDir? && r.trace[i] != StopSession
    ensures forall i :: 0 <= i < |r.trace| && r.trace[i].SubmitDag? ==>
      !outputExists && SubmitReached(failing) && r.trace[i].dag == DagModel.CreateWordCountDag(inputPath, outputPath)
    ensures Count(r.trace, SubmitDag(DagModel.CreateWordCountDag(inputPath, outputPath))) <= 1
    ensures failing == Some(ProbeOutput) ==> r.outcome == Raised(ClusterCallFailed)
    ensures outputExists && failing != Some(ProbeOutput) ==> r.outcome == Raised(OutputAlreadyExists)
    ensures !outputExists && failing == Some(AwaitReady) ==> r.outcome == Raised(SessionNotReady)
    ensures !outputExists && failing.Some? && failing.value != AwaitReady ==> r.outcome == Raised(ClusterCallFailed)
    ensures r.outcome.Returned? <==> !outputExists && failing.None?
    ensures r.outcome.Returned? ==> (r.outcome.succeeded <==> final == Succeeded)
    ensures r.outcome.Returned? ==>
      && |r.trace| >= 3
      && r.trace[|r.trace| - 3] == AwaitSessionReady
      && r.trace[|r.trace| - 2] == SubmitDag(DagModel.CreateWordCountDag(inputPath, outputPath))
      && r.trace[|r.trace| - 1] == AwaitDagCompletion
    ensures !r.outcome.StillPolling?
  {
    var t := BodyTrace(outputPath, DagModel.CreateWordCountDag(inputPath, outputPath), outputExists, failing);
    assert !outputExists && failing.None? ==> t == [t[0]] + t[1..];
    RunRecord(BodyOutcome(outputExists, failing, final), t)
  }

  /**
   * `run(inputPath, outputPath, conf)` for user `user` and application
   * `appId`: setup, then `Body` inside the finally block. `deleteFails` is
   * whether deleting the staging directory throws; that exception replaces
   * whatever the body returned or raised, and the stop is never reached.
   * `stopFails` is whether `stop()` throws when it is reached; its exception
   * likewise replaces the body's outcome. A setup failure escapes before
   * the finally block. `RunCleansUp`, `RunEndsWithCleanup`, `RunSubmitsWordCountDag`
   * and `RunSubmitCount` state what the trace does.
   */
  function Run(
    inputPath: string, outputPath: string, user: string, appId: string,
    setup: SetupOutcome, outputExists: bool, failing: Option<Call>, final: DagState,
    deleteFails: bool, stopFails: bool): (r: RunRecord)
    ensures !r.outcome.StillPolling?
    ensures setup.LookupFails? ==> r == RunRecord(Raised(SetupLookupFailed), [])
    ensures setup.CredentialsFail? ==> r.outcome == Raised(CredentialsFailed)
    ensures setup.StagingFails? ==> r.outcome == Raised(StagingFailed)
    ensures setup.StartFails? ==> r.outcome == Raised(SessionStartFailed)
    ensures setup.SetupOk? && deleteFails ==> r.outcome == Raised(StagingDeleteFailed)
    ensures setup.SetupOk? && !deleteFails && stopFails ==> r.outcome == Raised(SessionStopFailed)
    ensures setup.SetupOk? && !deleteFails ==>
      r.outcome == AfterStop(Body(inputPath, outputPath, outputExists, failing, final).outcome, stopFails)
    ensures r.outcome == Raised(OutputAlreadyExists) <==>
      setup.SetupOk? && !deleteFails && !stopFails && outputExists && failing != Some(ProbeOutput)
    ensures setup.SetupOk? && !deleteFails && !stopFails && !outputExists && failing == Some(AwaitReady) ==>
      r.outcome == Raised(SessionNotReady)
    ensures r.outcome == Raised(ClusterCallFailed) <==>
      && setup.SetupOk? && !deleteFails && !stopFails
      && (failing == Some(ProbeOutput) || (!outputExists && failing.Some? && failing.value != AwaitReady))
    ensures r.outcome.Returned? <==> setup.SetupOk? && !deleteFails && !stopFails && !outputExists && failing.None?
    ensures r.outcome.Returned? ==> (r.outcome.succeeded <==> final == Succeeded)
  {
    var dir := Staging.WordCountStagingDir(user, appId);
    var pre := SetupTrace(setup, dir);
    match setup
    case LookupFails => RunRecord(Raised(SetupLookupFailed), pre)
    case CredentialsFail => RunRecord(Raised(CredentialsFailed), pre)
    case StagingFails => RunRecord(Raised(StagingFailed), pre)
    case StartFails => RunRecord(Raised(SessionStartFailed), pre)
    case SetupOk =>
      var b := Body(inputPath, outputPath, outputExists, failing, final);
      var outcome := if deleteFails then Raised(StagingDeleteFailed) else AfterStop(b.outcome, stopFails);
      RunRecord(outcome, pre + b.trace + Finally(dir, deleteFails))
  }

  /** After a successful setup the trace is the setup's, the body's, then the finally block's. */
  lemma RunTrace(
    inputPath: string, outputPath: string, user: string, appId: string,
    outputExists: bool, failing: Option<Call>, final: DagState, deleteFails: bool, stopFails: bool)
    ensures var dir := Staging.WordCountStagingDir(user, appId);
      Run(inputPath, outputPath, user, appId, SetupOk, outputExists, failing, final, deleteFails, stopFails).trace ==
      SetupTrace(SetupOk, dir) + Body(inputPath, outputPath, outputExists, failing, final).trace + Finally(dir, deleteFails)
  {
  }

  /** Effects in a concatenation of three traces are counted part by part. */
  lemma CountJoin(a: seq<Effect>, b: seq<Effect>, c: seq<Effect>, e: Effect)
    ensures Count(a + b + c, e) == Count(a, e) + Count(b, e) + Count(c, e)
  {
    assert multiset(a + b + c) == multiset(a) + multiset(b) + multiset(c);
  }

  /**
   * Counting over setup, body and finally: when the body neither deletes nor
   * stops, the staging directory is deleted once and the session is stopped
   * once unless the delete throws.
   */
  lemma CleanupCounts(dir: string, b: seq<Effect>, deleteFails: bool)
    requires forall i :: 0 <= i < |b| ==> !b[i].DeleteStagingDir? && b[i] != StopSession
    ensures var t := SetupTrace(SetupOk, dir) + b + Finally(dir, deleteFails);
      && Count(t, DeleteStagingDir(dir)) == 1
      && Count(t, StopSession) == (if deleteFails then 0 else 1)
  {
    var pre := SetupTrace(SetupOk, dir);
    var f := Finally(dir, deleteFails);
    assert StopSession !in b && DeleteStagingDir(dir) !in b;
    assert Count(b, StopSession) == 0 && Count(b, DeleteStagingDir(dir)) == 0;
    assert Count(pre, StopSession) == 0 && Count(pre, DeleteStagingDir(dir)) == 0;
    CountJoin(pre, b, f, StopSession);
    CountJoin(pre, b, f, DeleteStagingDir(dir));
  }

  /**
   * After a successful setup, every path (returning, or raising from any
   * call) deletes the staging directory exactly once, and stops the session
   * exactly once iff that delete does not throw. A setup failure escapes
   * before the finally block: nothing is deleted or stopped.
   */
  lemma RunCleansUp(
    inputPath: string, outputPath: string, user: string, appId: string,
    setup: SetupOutcome, outputExists: bool, failing: Option<Call>, final: DagState, deleteFails: bool, stopFails: bool)
    ensures var r := Run(inputPath, outputPath, user, appId, setup, outputExists, failing, final, deleteFails, stopFails);
      var dir := Staging.WordCountStagingDir(user, appId);
      && (!setup.SetupOk? ==> Count(r.trace, StopSession) == 0 && Count(r.trace, DeleteStagingDir(dir)) == 0)
      && (setup.SetupOk? ==> Count(r.trace, DeleteStagingDir(dir)) == 1)
      && (setup.SetupOk? ==> (Count(r.trace, StopSession) == 1 <==> !deleteFails))
  {
    var dir := Staging.WordCountStagingDir(user, appId);
    if setup.SetupOk? {
      RunTrace(inputPath, outputPath, user, appId, outputExists, failing, final, deleteFails, stopFails);
      CleanupCounts(dir, Body(inputPath, outputPath, outputExists, failing, final).trace, deleteFails);
    }
  }

  /**
   * After a successful setup the run ends with the delete followed by the
   * stop, or with the delete alone when the delete throws.
   */
  lemma RunEndsWithCleanup(
    inputPath: string, outputPath: string, user: string, appId: string,
    outputExists: bool, failing: Option<Call>, final: DagState, deleteFails: bool, stopFails: bool)
    ensures var t := Run(inputPath, outputPath, user, appId, SetupOk, outputExists, failing, final, deleteFails, stopFails).trace;
      var dir := Staging.WordCountStagingDir(user, appId);
      && (!deleteFails ==> |t| >= 2 && t[|t| - 2..] == [DeleteStagingDir(dir), StopSession])
      && (deleteFails ==> |t| >= 1 && t[|t| - 1] == DeleteStagingDir(dir))
  {
    var t := Run(inputPath, outputPath, user, appId, SetupOk, outputExists, failing, final, deleteFails, stopFails).trace;
    var dir := Staging.WordCountStagingDir(user, appId);
    var pre := SetupTrace(SetupOk, dir);
    var b := Body(inputPath, outputPath, outputExists, failing, final).trace;
    var f := Finally(dir, deleteFails);
    RunTrace(inputPath, outputPath, user, appId, outputExists, failing, final, deleteFails, stopFails);
    assert t == (pre + b) + f;
    assert t[|t| - |f|..] == f;
  }

  /** In setup, body and finally, every submission comes from the body. */
  lemma SubmissionsFromBody(dir: string, b: seq<Effect>, deleteFails: bool)
    ensures var pre := SetupTrace(SetupOk, dir);
      var t := pre + b + Finally(dir, deleteFails);
      forall i :: 0 <= i < |t| && t[i].SubmitDag? ==> |pre| <= i < |pre| + |b| && t[i] == b[i - |pre|]
  {
    var pre := SetupTrace(SetupOk, dir);
    var f := Finally(dir, deleteFails);
    var t := pre + b + f;
    assert forall i :: 0 <= i < |pre| ==> !t[i].SubmitDag?;
    assert forall j :: 0 <= j < |f| ==> t[|pre| + |b| + j] == f[j] && !f[j].SubmitDag?;
    assert forall i :: 0 <= i < |b| ==> t[|pre| + i] == b[i];
  }

  /**
   * The only DAG `run` submits is the word-count graph for its two paths,
   * and never when the output directory already exists or an earlier call
   * threw.
   */
  lemma RunSubmitsWordCountDag(
    inputPath: string, outputPath: string, user: string, appId: string,
    setup: SetupOutcome, outputExists: bool, failing: Option<Call>, final: DagState, deleteFails: bool, stopFails: bool)
    ensures var t := Run(inputPath, outputPath, user, appId, setup, outputExists, failing, final, deleteFails, stopFails).trace;
      forall i :: 0 <= i < |t| && t[i].SubmitDag? ==>
        setup.SetupOk? && !outputExists && SubmitReached(failing) &&
        t[i].dag == DagModel.CreateWordCountDag(inputPath, outputPath)
  {
    var dir := Staging.WordCountStagingDir(user, appId);
    if setup.SetupOk? {
      RunTrace(inputPath, outputPath, user, appId, outputExists, failing, final, deleteFails, stopFails);
      SubmissionsFromBody(dir, Body(inputPath, outputPath, outputExists, failing, final).trace, deleteFails);
    } else {
      var t := Run(inputPath, outputPath, user, appId, setup, outputExists, failing, final, deleteFails, stopFails).trace;
      assert t == SetupTrace(setup, dir);
    }
  }

  /** `run` submits the word-count graph at most once, and exactly once when it returns. */
  lemma RunSubmitCount(
    inputPath: string, outputPath: string, user: string, appId: string,
    setup: SetupOutcome, outputExists: bool, failing: Option<Call>, final: DagState, deleteFails: bool, stopFails: bool)
    ensures var r := Run(inputPath, outputPath, user, appId, setup, outputExists, failing, final, deleteFails, stopFails);
      var dag := DagModel.CreateWordCountDag(inputPath, outputPath);
      && Count(r.trace, SubmitDag(dag)) <= 1
      && (r.outcome.Returned? ==> Count(r.trace, SubmitDag(dag)) == 1)
  {
    var r := Run(inputPath, outputPath, user, appId, setup, outputExists, failing, final, deleteFails, stopFails);
    var t := r.trace;
    var dag := DagModel.CreateWordCountDag(inputPath, outputPath);
    var dir := Staging.WordCountStagingDir(user, appId);
    var pre := SetupTrace(setup, dir);
    if setup.SetupOk? {
      var body := Body(inputPath, outputPath, outputExists, failing, final);
      var b := body.trace;
      var f := Finally(dir, deleteFails);
      RunTrace(inputPath, outputPath, user, appId, outputExists, failing, final, deleteFails, stopFails);
      assert t == pre + b + f;
      assert SubmitDag(dag) !in pre && SubmitDag(dag) !in f;
      assert Count(pre, SubmitDag(dag)) == 0 && Count(f, SubmitDag(dag)) == 0;
      CountJoin(pre, b, f, SubmitDag(dag));
      if r.outcome.Returned? {
        assert body.outcome.Returned?;
        assert b[|b| - 2] == SubmitDag(dag);
        assert SubmitDag(dag) in multiset(b);
      }
    } else {
      assert t == pre;
    }
  }

  /** The last five effects of setup, body and finally, when the body has at least three and the finally block two. */
  lemma LastFive(pre: seq<Effect>, b: seq<Effect>, f: seq<Effect>)
    requires |b| >= 3 && |f| == 2
    ensures var t := pre + b + f;
      |t| >= 5 && t[|t| - 5..] == [b[|b| - 3], b[|b| - 2], b[|b| - 1], f[0], f[1]]
  {
    var t := pre + b + f;
    assert t[|t| - 5..] == b[|b| - 3..] + f;
  }

  /**
   * A run that returns waited for the session, submitted the word-count
   * graph, and waited for its completion, in that order, just before the
   * finally block's delete and stop.
   */
  lemma RunReturnsAfterCompletion(
    inputPath: string, outputPath: string, user: string, appId: string,
    setup: SetupOutcome, outputExists: bool, failing: Option<Call>, final: DagState, deleteFails: bool, stopFails: bool)
    ensures var r := Run(inputPath, outputPath, user, appId, setup, outputExists, failing, final, deleteFails, stopFails);
      var t := r.trace;
      var dir := Staging.WordCountStagingDir(user, appId);
      r.outcome.Returned? ==>
        && |t| >= 5
        && t[|t| - 5..] == [AwaitSessionReady, SubmitDag(DagModel.CreateWordCountDag(inputPath, outputPath)),
                            AwaitDagCompletion, DeleteStagingDir(dir), StopSession]
  {
    var r := Run(inputPath, outputPath, user, appId, setup, outputExists, failing, final, deleteFails, stopFails);
    if r.outcome.Returned? {
      var dir := Staging.WordCountStagingDir(user, appId);
      var b := Body(inputPath, outputPath, outputExists, failing, final).trace;
      RunTrace(inputPath, outputPath, user, appId, outputExists, failing, final, deleteFails, stopFails);
      LastFive(SetupTrace(SetupOk, dir), b, Finally(dir, false));
    }
  }

  /**
   * A failing delete leaks the session: the DAG succeeds and `stop()` would
   * succeed, yet `run` raises the delete's exception and never stops the
   * session.
   */
  lemma DeleteFailureLeaksSession(inputPath: string, outputPath: string, user: string, appId: string)
    ensures var r := Run(inputPath, outputPath, user, appId, SetupOk, false, None, Succeeded, true, false);
      r.outcome == Raised(StagingDeleteFailed) && Count(r.trace, StopSession) == 0
  {
    RunCleansUp(inputPath, outputPath, user, appId, SetupOk, false, None, Succeeded, true, false);
  }

  /** A finally block whose failing delete is logged and does not prevent the stop. */
  function SafeFinally(dir: string): (t: seq<Effect>)
    ensures Count(t, DeleteStagingDir(dir)) == 1 && Count(t, StopSession) == 1
    ensures |t| >= 1 && t[|t| - 1] == StopSession
  {
    [DeleteStagingDir(dir), StopSession]
  }

  /**
   * `run` with the corrected finally block: the delete's exception is caught
   * and logged there, so `deleteFails` changes neither the trace nor the
   * outcome, and the session is always stopped. An exception from `stop()`
   * still replaces the body's outcome.
   */
  function SafeRun(
    inputPath: string, outputPath: string, user: string, appId: string,
    setup: SetupOutcome, outputExists: bool, failing: Option<Call>, final: DagState,
    deleteFails: bool, stopFails: bool): (r: RunRecord)
    ensures !r.outcome.StillPolling?
    ensures setup.SetupOk? && stopFails ==> r.outcome == Raised(SessionStopFailed)
    ensures setup.SetupOk? ==>
      r.outcome == AfterStop(Body(inputPath, outputPath, outputExists, failing, final).outcome, stopFails)
    ensures !setup.SetupOk? ==>
      r == Run(inputPath, outputPath, user, appId, setup, outputExists, failing, final, deleteFails, stopFails)
    ensures r.outcome.Returned? <==> setup.SetupOk? && !stopFails && !outputExists && failing.None?
    ensures r.outcome.Returned? ==> (r.outcome.succeeded <==> final == Succeeded)
  {
    var dir := Staging.WordCountStagingDir(user, appId);
    var pre := SetupTrace(setup, dir);
    match setup
    case LookupFails => RunRecord(Raised(SetupLookupFailed), pre)
    case CredentialsFail => RunRecord(Raised(CredentialsFailed), pre)
    case StagingFails => RunRecord(Raised(StagingFailed), pre)
    case StartFails => RunRecord(Raised(SessionStartFailed), pre)
    case SetupOk =>
      var b := Body(inputPath, outputPath, outputExists, failing, final);
      RunRecord(AfterStop(b.outcome, stopFails), pre + b.trace + SafeFinally(dir))
  }

  /**
   * With the corrected finally block, every path after a successful setup
   * stops the session exactly once, last, whether or not the delete throws,
   * and neither the outcome nor the trace depends on the delete.
   */
  lemma SafeRunAlwaysStops(
    inputPath: string, outputPath: string, user: string, appId: string,
    outputExists: bool, failing: Option<Call>, final: DagState, deleteFails: bool, stopFails: bool)
    ensures var r := SafeRun(inputPath, outputPath, user, appId, SetupOk, outputExists, failing, final, deleteFails, stopFails);
      && Count(r.trace, StopSession) == 1
      && r.trace[|r.trace| - 1] == StopSession
      && r == SafeRun(inputPath, outputPath, user, appId, SetupOk, outputExists, failing, final, !deleteFails, stopFails)
  {
    var r := SafeRun(inputPath, outputPath, user, appId, SetupOk, outputExists, failing, final, deleteFails, stopFails);
    var dir := Staging.WordCountStagingDir(user, appId);
    var b := Body(inputPath, outputPath, outputExists, failing, final).trace;
    assert r.trace == SetupTrace(SetupOk, dir) + b + SafeFinally(dir);
    assert StopSession !in b;
  }

  /** `run(String[])`'s result: an exit status, or the exception the job let escape. */
  datatype ToolResult = ExitStatus(code: int) | Escaped(error: RunError)

  datatype ToolRecord = ToolRecord(result: ToolResult, trace: seq<Effect>)

  /** Exit status for a wrong argument count. */
  const UsageExit: int := 2

  /**
   * `run(String[])` over the arguments left after generic Hadoop options are
   * removed. A count other than two exits 2 before any effect; otherwise the
   * job runs on the two paths and the status is 0 whether the DAG succeeded
   * or not, because the job's boolean result is discarded.
   */
  function ToolRun(
    args: seq<string>, user: string, appId: string,
    setup: SetupOutcome, outputExists: bool, failing: Option<Call>, final: DagState,
    deleteFails: bool, stopFails: bool): (t: ToolRecord)
    ensures |args| != 2 ==> t == ToolRecord(ExitStatus(UsageExit), [])
    ensures |args| == 2 ==>
      var r := Run(args[0], args[1], user, appId, setup, outputExists, failing, final, deleteFails, stopFails);
      && t.trace == r.trace
      && (r.outcome.Returned? ==> t.result == ExitStatus(0))
      && (r.outcome.Raised? ==> t.result == Escaped(r.outcome.error))
  {
    if |args| != 2 then ToolRecord(ExitStatus(UsageExit), [])
    else
      var r := Run(args[0], args[1], user, appId, setup, outputExists, failing, final, deleteFails, stopFails);
      match r.outcome
      case Raised(e) => ToolRecord(Escaped(e), r.trace)
      case _ => ToolRecord(ExitStatus(0), r.trace)
  }

  /** The exit status does not depend on the DAG's final state: a failed DAG still exits 0. */
  lemma ToolRunIgnoresDagResult(
    args: seq<string>, user: string, appId: string,
    setup: SetupOutcome, outputExists: bool, failing: Option<Call>, f1: DagState, f2: DagState,
    deleteFails: bool, stopFails: bool)
    ensures ToolRun(args, user, appId, setup, outputExists, failing, f1, deleteFails, stopFails).result ==
            ToolRun(args, user, appId, setup, outputExists, failing, f2, deleteFails, stopFails).result
  {
  }

  /**
   * A reported FAILED state makes `run` return false, yet the tool still
   * exits 0; a SUCCEEDED DAG whose `stop()` throws makes the tool throw.
   */
  lemma FailedDagExitsZero(inputPath: string, outputPath: string, user: string, appId: string)
    ensures Run(inputPath, outputPath, user, appId, SetupOk, false, None, Failed, false, false).outcome == Returned(false)
    ensures ToolRun([inputPath, outputPath], user, appId, SetupOk, false, None, Failed, false, false).result == ExitStatus(0)
    ensures ToolRun([inputPath, outputPath], user, appId, SetupOk, false, None, Succeeded, false, true).result ==
      Escaped(SessionStopFailed)
  {
  }
}

=== FILE: wrappers.dfy ===
/** Failure-carrying wrappers shared by the rest of the model. */
module Wrappers {

  /** A value that may be absent: Java's `null`, or a step that produced nothing. */
  datatype Option<+T> = None | Some(value: T)

  /** A result that is either a value or the exception the Java call throws instead. */
  datatype Result<+T, +E> = Success(value: T) | Failure(error: E)
}
